=== FILE: README.md ===
# Motion runner: a verified model of the game core

`script.js` is a browser lane-runner. The player steers an avatar across a
three-lane track by moving left and right in front of a webcam. This project
models the logic of that game in Dafny, with the DOM, canvas and camera
removed, and proves properties of the model. It covers five parts:

- **Frame differencing and the centroid gate.** `processMotionFrame`
  computes the luma of each pixel and compares it with the luma stored from
  the previous frame. A pixel is active when the two differ by more than 26.
  Active pixels are counted and their columns summed. When more than 50 are
  active, the mean column is normalised by the frame width and blended
  0.6/0.4 into the smoothed signal.
- **The player controller.** `mapMotionToTrackX` clamps the signal to
  [0, 1] and maps it onto [70, 350]. `updatePlayerPosition` eases the avatar
  toward that target with gain 0.42 and snaps onto it once within 0.5.
- **The entity simulator.** `spawnObstacle`, `spawnCoin`, `moveObstacles`
  and `moveCoins` spawn entities with a capped difficulty ramp, advance
  them, and drop those that have left the screen.
- **Collision, pickup and metrics.** `checkCollision` and
  `checkCoinCollection` test geometric overlap. `maybeRecordReaction`
  measures the reaction time to a spawn. `updatePhysicsMetrics` keeps a
  running maximum of the horizontal speed.
- **The session state machine.** `updateGame`, `startGame`, `resetGame`,
  `openQuiz` and the quiz's resume callback.

The script keeps its state in module-level `let` variables. The model
replaces these with one immutable `Game.Session` value, advanced by pure
step functions:

- `UpdateGame` is one simulation tick.
- `AnimationStep` is one display frame.
- `ProcessMotionFrame` is one camera frame.

`Game.Valid` is the invariant of every reachable session. The score is the
number of completed 65-tick periods. The best score is at least the score.
A running game is not over. The smoothed signal lies in [0, 1]. Every
obstacle and coin is falling at a speed its spawn can produce, strictly
between its spawn row and its exit line. Every step function preserves
`Valid`.

Modelling choices:

- JavaScript numbers are modelled as Dafny `real`. The arithmetic is linear
  maps and comparisons, so exact rationals are a faithful abstraction.
- `Math.round(x)` is `floor(x + 0.5)`.
- `Math.floor(Math.random() * 3)` is the floor of `3r` for a draw `r`.
- Each `Math.random()` draw is a real parameter in [0, 1). `Game.Draws`
  holds a lane draw and a speed draw for the obstacle spawned on a 65th
  tick and for the coin spawned on a 210th tick. Which of the script's
  successive calls supplies each draw is not fixed: on a coin-only tick the
  coin takes the first two. The draw with which `openQuiz` picks a quiz
  topic is not modelled.
- `performance.now()` and the canvas width and height are parameters.
- The camera frame is the RGBA byte sequence that `getImageData` returns,
  already mirrored.

What `script.js` computes, stated precisely:

- The centroid is the unweighted mean column of the active pixels.
- Every row of the frame is used. There is no crop band and no sampling
  stride.
- The blend weight is fixed at 0.4.
- Only horizontal motion is tracked. Nothing reacts to vertical motion.
- A stored luma buffer shorter than the frame reads `undefined` past its
  end. The comparison is then false, so such a pixel is inactive
  (`Motion.PreviousAt`).

## Model

| member | source | states |
|---|---|---|
| Motion.Luma | script.js:368 | A pixel's luma is a byte within half a unit of the Rec. 601 weighted sum of its red, green and blue bytes |
| Motion.GreyLuma | script.js:368 | The weights sum to one, so a grey pixel's luma is its channel value |
| Motion.DiffFrame | script.js:365-379 | The one-pass loop over the RGBA bytes returns the luma of every pixel, in order. Its active-pixel count and column sum equal the pixel-by-pixel reference definitions `CountActive` and `SumActiveX` |
| Motion.CountIsActiveSetSize | script.js:370-379 | The active count is the size of the set of pixel indices whose luma moved by more than 26 from the stored luma |
| Motion.CountBounded | script.js:365-379 | At most every pixel is active |
| Motion.SumBounded | script.js:365-379 | Each summed column is `pixelIndex % width`, so the column sum is at most `width - 1` per active pixel |
| Motion.FirstFrameIsQuiet | script.js:371-372 | With no stored luma, every pixel is compared with itself: the count and the sum are 0 |
| Motion.UnchangedPixelInactive | script.js:371-374 | A pixel whose luma equals the stored one is never active |
| Motion.StillSceneIsQuiet | script.js:371-374 | A frame identical to the stored one shows no active pixel |
| Motion.CentroidX | script.js:392-393 | The normalised centroid times the active count times the width is the column sum, so it is the mean active column divided by the width. It is not negative, and below 1 whenever the sum is within `width - 1` per pixel |
| Motion.CentroidInUnit | script.js:392-393 | The mean column divided by the width lies in [0, 1) under the column bound |
| Motion.GateCentroid | script.js:390-395 | There is no sample exactly when at most 50 pixels are active. Otherwise the sample lies in [0, 1) |
| Motion.Blend | script.js:394 | The blend keeps 0.6 of the old value's distance from the sample, which is the 0.6/0.4 mix. It lies between the old value and the sample, and is strictly closer to the sample unless the two are equal |
| Motion.Smooth | script.js:390-395 | Without a sample the smoothed signal is held, not decayed. With one it moves between the old value and the sample |
| Motion.SmoothStaysInUnit | script.js:390-395 | A smoothed signal in [0, 1] stays in [0, 1] after any analysed frame |
| Controller.Clamp01 | script.js:296 | The clamp lies in [0, 1] and is the identity on [0, 1] |
| Controller.MapMotionToTrackX | script.js:295-298 | The target is in [70, 350] for every input. It saturates at 70 for inputs at or below 0 and at 350 for inputs at or above 1. On [0, 1] it is a linear bijection whose inverse gives back the input |
| Controller.MapLandmarks | script.js:295-298 | Inputs 0, 0.5 and 1 map to 70, 210 and 350 |
| Controller.MapMonotone | script.js:295-298 | The map never decreases |
| Controller.UpdatePlayerPosition | script.js:300-308 | Within 0.5 of the target the avatar snaps onto it. Otherwise the remaining signed distance becomes 0.58 times the old one. The target is untouched |
| Controller.NoOvershoot | script.js:300-308 | The new position lies between the old one and the target. The distance strictly decreases unless it is already 0, and by at least 0.21 when it is 0.5 or more |
| Controller.SettledStaysSettled | script.js:300-304 | An avatar on its target stays there for any number of frames |
| Controller.EaseSettles | script.js:300-308 | With the target held, the avatar reaches it exactly within `1 + ceil(d / 0.21)` frames, where `d` is the initial distance |
| Entities.LaneOf | script.js:149 | The lane drawn is 0, 1 or 2, and it is the floor of three times the draw |
| Entities.LaneOfUniform | script.js:149 | Each lane is chosen by exactly a third of the draw interval |
| Entities.ObstacleSpeed | script.js:150-151 | Obstacle speed lies in [1.6, 4.0) and below the uncapped ramp plus 0.8 |
| Entities.ObstacleSpeedAtZero | script.js:150-151 | At score 0 the speed is 1.6 plus 0.8 times the draw |
| Entities.ObstacleSpeedRampStep | script.js:150-151 | Below the cap each point adds exactly 0.012 to the speed |
| Entities.ObstacleSpeedMonotone | script.js:150-151 | For a fixed draw, speed never decreases as the score grows |
| Entities.ObstacleSpeedSaturates | script.js:150-151 | From score 134 on, the ramp is capped and speed is 3.2 plus the jitter |
| Entities.CoinSpeed | script.js:157 | Coin speed lies in [2.2, 2.9), and subtracting 2.2 and dividing by 0.7 gives back the draw |
| Entities.CoinSpeedRecoversDraw | script.js:157 | The draw is recovered from the coin speed, so two draws give the same speed exactly when they are equal |
| Entities.SpawnObstacle | script.js:148-153 | Spawning appends exactly one obstacle and keeps the others as they were. The new obstacle is at y = -50 in the lane drawn, at a speed in range |
| Entities.SpawnCoin | script.js:155-158 | Spawning appends exactly one coin at y = -30 in the lane drawn, at a speed in range. The other coins are kept as they were |
| Entities.MoveEntities | script.js:160-170 | No survivor is at or below the exit line. Nothing is dropped exactly when every entity's next position is above the line |
| Entities.MoveObstacles | script.js:160-164 | Surviving obstacles are above `height + 60` |
| Entities.MoveCoins | script.js:166-170 | Surviving coins are above `height + 40` |
| Entities.MoveEntitiesSpec | script.js:160-170 | The survivors are a subsequence of the advanced entities in their original order. Each survivor fell by exactly its own speed and kept its lane and speed. An entity survives exactly when its new y is above the exit line |
| Entities.MoveKeepsLast | script.js:160-164 | An entity appended last stays last after a move, advanced by one step, while it is still on screen |
| Entities.MovePreservesFalling | script.js:160-170 | With positive speeds, every survivor of a move lies strictly between the spawn row and the exit line, at its old speed |
| Entities.FallsLinearly | script.js:160-164 | A lone obstacle left alone for `n` ticks has fallen by its speed on every tick, as long as it stays on screen |
| Entities.FifteenTicksScenario | script.js:148-164 | An obstacle spawned in the middle lane at speed 4 is at y = 10, still in that lane, after fifteen ticks |
| Seqs.FilterPreservesOrder | script.js:160-170 | `Array.prototype.filter` keeps exactly the elements that pass, in their original relative order |
| Collision.CollisionWindow | script.js:194-201 | With the avatar's fixed row, an obstacle in reach is dangerous exactly while its top edge is in [484, 568] |
| Collision.OneLaneAtATime | script.js:194-201 | Lanes are 120 px apart and the reach is 34 px, so two colliding obstacles are in the same lane |
| Collision.CheckCollision | script.js:194-201 | A collision is reported exactly when some obstacle overlaps the avatar |
| Collision.CollectCoins | script.js:177-187 | A coin is collected exactly when some coin overlaps the avatar, and exactly when the list shrank. The remaining coins are the non-overlapping ones, and all of them are kept |
| Collision.CollectCoinsKeepsOrder | script.js:178-187 | Coins that are not picked up keep their relative order |
| Collision.HighCoinSurvives | script.js:178-187 | A coin at least 30 px above the avatar's row cannot be picked up, so a just-spawned coin stays last |
| Metrics.Interval | script.js:318 | The frame interval is the elapsed time in seconds whenever at least 1 ms has elapsed, and exactly 1 ms otherwise |
| Metrics.HorizontalSpeed | script.js:318-319 | The speed times the frame interval is the distance moved. It is not negative, zero exactly when the avatar did not move, and at most the distance divided by 1 ms |
| Metrics.UpdatePhysicsMetrics | script.js:317-331 | The new maximum is the larger of the old maximum and this frame's speed. The sample position and clock are recorded, and the reaction fields are untouched |
| Metrics.ReactionValue | script.js:336 | The recorded reaction time is a non-negative whole number of milliseconds, the elapsed time rounded |
| Metrics.MaybeRecordReaction | script.js:333-345 | A reaction time is written only after a spawn, only while none is recorded, and only on a move of more than 8 px; such a move always writes it. The reference target moves exactly on such moves |
| Metrics.ReactionRecordedOnce | script.js:333-345 | A recorded reaction time is never overwritten by later display frames |
| Metrics.FirstMoveWins | script.js:333-345 | After a spawn, the time recorded is that of the first frame whose target moved more than 8 px from the reference. With no such frame, nothing changes |
| Metrics.MaxSpeedIsRunningMax | script.js:317-331 | Over any run of frames the maximum never falls and bounds the first frame's speed. The last sample's position and time are the ones recorded |
| Metrics.UpdateAllSplit | script.js:317-331 | Running the frames in two stretches gives the same metrics as running them in one |
| Metrics.MaxSpeedBoundsEverySample | script.js:317-331 | After any run of frames, the maximum is at least the speed of every frame, each measured against the frame before it (the first one against the starting sample) |
| Game.InitialSession | script.js:21-64 | At page load the game is stopped, not over and not in a quiz, with an empty track and zero score and counter. The best score is the stored value. No luma is stored and the avatar is centred on its target. The metrics clock reads the load time, the speed maximum is 0 and no reaction clock runs |
| Game.ResetGame | script.js:456-481 | A reset empties the track and zeroes the score and counter. It clears game-over, the quiz flag, the reaction clock and the maximum speed. It centres the avatar on its target and the smoothed signal at 0.5. The running flag, the best score, the stored luma and the metrics clock are kept |
| Game.ResetRestoresLaunchState | script.js:456-481 | Resetting the launch session gives it back, and resetting twice is the same as resetting once |
| Game.ResetIsValid | script.js:456-481 | A reset session satisfies the session invariant |
| Game.InitialIsValid | script.js:44-64 | The launch session satisfies the session invariant when the stored best score is not negative |
| Game.StartGame | script.js:442-454 | After a start the game runs. A running session is untouched. A finished game is reset first. A paused one only gets its running flag set |
| Game.StartPreservesValid | script.js:442-454 | Starting keeps the session invariant |
| Game.OpenQuiz | script.js:254-256 | Opening the quiz sets the quiz flag and pauses the simulation, and nothing else. Answering it gives back the running session it interrupted |
| Game.QuizPausesSimulation | script.js:203-209 | While the quiz is showing, a simulation tick changes nothing |
| Game.ResumeQuiz | script.js:277-285 | Answering closes the quiz and resumes the run unless the game is over |
| Game.QuizPreservesValid | script.js:254-285 | Opening and closing the quiz keep the session invariant |
| Game.ObstacleTick | script.js:212-223 | The spawn branch appends one obstacle, in the lane drawn at y = -50 and at the speed for the score before the point, and adds one point. The best score becomes the larger of the old best and the new score. The reaction clock restarts and no other metric changes. Nothing else changes |
| Game.CheckCoinCollection | script.js:172-192 | During a quiz nothing happens. Otherwise overlapping coins are removed, the quiz opens exactly when one was picked up, and the run goes on exactly when it was running and the quiz did not open |
| Game.SpawnPhase | script.js:211-227 | An obstacle spawns and the score rises exactly on multiples of 65. A coin spawns exactly on multiples of 210. An obstacle tick also restarts the reaction clock; otherwise the metrics are untouched. The best score becomes the larger of the old best and the new score. No other field changes |
| Game.CollisionPhase | script.js:233-238 | A collision ends the run and stops it. Without one the session is unchanged |
| Game.TickFlags | script.js:172-238 | After a running tick the quiz is showing exactly when a coin, once spawned and moved, lies under the avatar. The run goes on exactly when the quiz did not open and no obstacle hits the avatar. The best score is the larger of the old best and the new score |
| Game.UpdateGame | script.js:203-245 | A stopped or quiz-paused session is untouched. Otherwise the counter rises by one, and the score rises by one exactly when the new counter is a multiple of 65. The best score keeps up with the score. Game-over is set exactly on a collision. The avatar, smoothed signal and stored luma are untouched |
| Game.NoObstacleSpawned | script.js:211-232 | On other ticks the obstacles only move and the metrics are untouched |
| Game.ObstacleSpawned | script.js:211-231 | On a 65th tick the moved old obstacles are followed by the new one. It is in the lane drawn, at the speed for the score before the point, one step below y = -50 |
| Game.SpawnRestartsReactionClock | script.js:212-215 | A spawn tick restarts the reaction clock at the tick's time and clears the last reaction time |
| Game.CoinSpawned | script.js:225-231 | On a 210th tick the new coin ends the coin list, one step below y = -30, in the lane drawn |
| Game.UpdateGamePreservesValid | script.js:203-245 | A tick keeps the session invariant. In particular the score stays the number of completed 65-tick periods |
| Game.AnimationStep | script.js:483-490 | A display frame eases the avatar toward an unchanged target: within 0.5 it lands on the target, otherwise the remaining distance becomes 0.58 of what it was. It records the sample position and time, and the maximum speed becomes the larger of the old maximum and this frame's speed. After a spawn, the first move of the target by more than 8 px records the reaction time, and only such a move does; a recorded time is never overwritten. The reference target moves exactly on such moves |
| Game.AnimationPreservesValid | script.js:483-490 | A display frame keeps the session invariant |
| Game.ProcessMotionFrame | script.js:361-410 | The count is the reference count, at most the number of pixels, and 0 on the first frame. Up to 50 active pixels hold the signal and the target. Above that, the signal is the blend of the old one with the reference centroid, and the target is its mapping into [70, 350]. The signal stays in [0, 1]. The new frame's luma is stored |
| Game.CameraStepPreservesValid | script.js:390-409 | A camera step keeps the session invariant whenever it leaves the smoothed signal in [0, 1] |

## Left out

- Drawing is not modelled: `drawTrack`, `drawPlayer`, `drawObstacles`, `drawCoins`, `renderGame` and the green/grey tinting of the motion view. These are rendering side effects with no effect on the game state.
- Camera acquisition is not modelled: `setupCamera`, the `video.readyState` check and the mirrored `drawImage`/`getImageData` capture. These are browser APIs. The frame is an input byte sequence, whose length is a whole number of pixels.
- The `requestAnimationFrame`, `setInterval` and `setTimeout` chains are not modelled, and neither is the 900 ms delay before the quiz resumes. Each loop body is one step function, and the model does not count how many callback chains are pending.
- `localStorage` is not modelled. The best score is plain session state, and the parse of the stored value is a parameter of `Game.InitialSession`. A stored value that does not parse, and so reads as `NaN`, is not modelled.
- Quiz content is not modelled: question choice, buttons, feedback text and whether the answer was right. Only the state effects of opening and answering are.
- The `physicsConcepts` rotation, every `textContent` readout with its display rounding, and the `noMotionFrames`, `motionReadoutTick`, `metricReadoutTick` and `lastMetricUpdate` counters are not modelled. They only feed the UI text.
- Floating-point rounding is not modelled. Luma, the centroid and the blend are computed in exact rationals, and `Math.round` rounds half up as on non-negative numbers.
- `Math.random` is not modelled. Draws are parameters in [0, 1), so no distribution is assumed beyond `Entities.LaneOfUniform`.
- The buffer `new Uint8ClampedArray(width * height)` has one entry per pixel of a `width` by `height` frame. The model's luma sequence has one entry per pixel of the input, which is the same for frames from `getImageData`.

=== FILE: collision.dfy ===
/** Geometric tests between the avatar and the entities: `checkCollision`
    (any obstacle overlapping the avatar ends the run) and the filter of
    `checkCoinCollection` (overlapping coins are picked up). */
module Collision {
  import opened Common
  import Seqs
  import opened Controller
  import opened Entities

  /** Horizontal reach within which an obstacle can hit the avatar. */
  const ObstacleReachX: real := 34.0
  /** Obstacles are squares of this side, drawn downward from `y`. */
  const ObstacleSize: real := 48.0
  const CoinReachX: real := 28.0
  const CoinReachY: real := 30.0

  /** The obstacle's column is near the avatar and its vertical extent
      `[y, y + 48]` meets the avatar's `[550 - 18, 550 + 18]`. */
  predicate Collides(o: Entity, playerX: real)
  {
    && Abs(LaneX(o.lane) - playerX) < ObstacleReachX
    && o.y + ObstacleSize >= PlayerY - PlayerRadius
    && o.y <= PlayerY + PlayerRadius
  }

  /** With the avatar's fixed row, an obstacle is dangerous exactly while its
      top edge is in `[484, 568]`. */
  lemma CollisionWindow(o: Entity, playerX: real)
    ensures Collides(o, playerX) <==>
      Abs(LaneX(o.lane) - playerX) < ObstacleReachX && 484.0 <= o.y <= 568.0
  {
  }

  /** Lanes are 120 px apart and the reach is 34 px, so the avatar can be
      hit from at most one lane at a time; between lanes it is safe. */
  lemma OneLaneAtATime(o1: Entity, o2: Entity, playerX: real)
    requires Collides(o1, playerX) && Collides(o2, playerX)
    ensures o1.lane == o2.lane
  {
  }

  /** `obstacles.some(...)`. */
  function CheckCollision(obstacles: seq<Entity>, playerX: real): (hit: bool)
    ensures hit <==> exists i :: 0 <= i < |obstacles| && Collides(obstacles[i], playerX)
    decreases |obstacles|
  {
    if |obstacles| == 0 then false
    else Collides(obstacles[0], playerX) || CheckCollision(obstacles[1..], playerX)
  }

  predicate CoinHit(c: Entity, playerX: real)
  {
    Abs(LaneX(c.lane) - playerX) < CoinReachX && Abs(c.y - PlayerY) < CoinReachY
  }

  function Missed(playerX: real): Entity -> bool
  {
    (c: Entity) => !CoinHit(c, playerX)
  }

  /** The coins left after a pickup check, and whether any was collected. */
  datatype Pickup = Pickup(remaining: seq<Entity>, collected: bool)

  /** The filter of `checkCoinCollection`: overlapping coins are removed. */
  function CollectCoins(coins: seq<Entity>, playerX: real): (p: Pickup)
    ensures p.collected <==> exists i :: 0 <= i < |coins| && CoinHit(coins[i], playerX)
    ensures p.collected <==> |p.remaining| < |coins|
    ensures forall k :: 0 <= k < |p.remaining| ==> p.remaining[k] in coins && !CoinHit(p.remaining[k], playerX)
    ensures forall i :: 0 <= i < |coins| && !CoinHit(coins[i], playerX) ==> coins[i] in p.remaining
  {
    var remaining := Seqs.Filter(coins, Missed(playerX));
    Pickup(remaining, |remaining| < |coins|)
  }

  /** Coins that are not picked up keep their relative order. */
  lemma CollectCoinsKeepsOrder(coins: seq<Entity>, playerX: real)
    ensures Seqs.SelectsAt(CollectCoins(coins, playerX).remaining, coins, Seqs.Kept(coins, Missed(playerX), 0))
  {
    Seqs.FilterPreservesOrder(coins, Missed(playerX));
  }

  /** A coin far above the avatar's row cannot be picked up. */
  lemma HighCoinSurvives(coins: seq<Entity>, c: Entity, playerX: real)
    requires c.y <= PlayerY - CoinReachY
    ensures CollectCoins(coins + [c], playerX).remaining == CollectCoins(coins, playerX).remaining + [c]
  {
    Seqs.FilterAppend(coins, c, Missed(playerX));
  }
}

=== FILE: common.dfy ===
/** Shared vocabulary of the motion runner model: optional values, bytes,
    and the handful of JavaScript `Math` helpers the game relies on. */
module Common {

  /** JavaScript's `null`-or-value, as used for `previousLuma`,
      `movementStartTime` and `reactionMs`. */
  datatype Option<+T> = None | Some(value: T)

  /** One channel of an RGBA pixel, or one sample of a luma buffer
      (`Uint8ClampedArray`). */
  type Byte = b: int | 0 <= b < 256

  function Abs(x: real): (r: real)
    ensures r >= 0.0
    ensures r == x || r == -x
  {
    if x < 0.0 then -x else x
  }

  function Min(a: real, b: real): (r: real)
    ensures r <= a && r <= b
    ensures r == a || r == b
  {
    if a <= b then a else b
  }

  function Max(a: real, b: real): (r: real)
    ensures r >= a && r >= b
    ensures r == a || r == b
  {
    if a >= b then a else b
  }

  /** `Math.round`: nearest integer, ties rounded toward +infinity. */
  function Round(x: real): (n: int)
    ensures x - 0.5 < n as real <= x + 0.5
  {
    (x + 0.5).Floor
  }
}

=== FILE: controller.dfy ===
/** The player controller: `mapMotionToTrackX` turns the smoothed signal
    into a target column on the track, and `updatePlayerPosition` eases the
    avatar toward it, snapping once close enough. */
module Controller {
  import opened Common

  const PlayerMinX: real := 70.0
  const PlayerMaxX: real := 350.0
  /** Fraction of the remaining distance covered per display frame. */
  const FollowStrength: real := 0.42
  /** Below this distance the avatar jumps onto its target. */
  const SnapDistance: real := 0.5
  /** Fixed row and radius of the avatar. */
  const PlayerY: real := 550.0
  const PlayerRadius: real := 18.0

  /** The avatar: where it is drawn and where the camera wants it. */
  datatype Player = Player(x: real, targetX: real)

  function Clamp01(v: real): (c: real)
    ensures 0.0 <= c <= 1.0
    ensures 0.0 <= v <= 1.0 ==> c == v
  {
    Max(0.0, Min(1.0, v))
  }

  /** Linear map of the clamped signal onto `[PlayerMinX, PlayerMaxX]`. */
  function MapMotionToTrackX(v: real): (t: real)
    ensures PlayerMinX <= t <= PlayerMaxX
    ensures v <= 0.0 ==> t == PlayerMinX
    ensures v >= 1.0 ==> t == PlayerMaxX
    ensures 0.0 <= v <= 1.0 ==> (t - PlayerMinX) / (PlayerMaxX - PlayerMinX) == v
  {
    PlayerMinX + Clamp01(v) * (PlayerMaxX - PlayerMinX)
  }

  /** The endpoints and midpoint of the unit signal land on the track's
      edges and centre. */
  lemma MapLandmarks()
    ensures MapMotionToTrackX(0.0) == 70.0
    ensures MapMotionToTrackX(0.5) == 210.0
    ensures MapMotionToTrackX(1.0) == 350.0
  {
  }

  /** Moving further right in front of the camera never moves the target left. */
  lemma MapMonotone(a: real, b: real)
    requires a <= b
    ensures MapMotionToTrackX(a) <= MapMotionToTrackX(b)
  {
  }

  /** One display frame of easing toward the target. */
  function UpdatePlayerPosition(p: Player): (q: Player)
    ensures q.targetX == p.targetX
    ensures Abs(p.targetX - p.x) < SnapDistance ==> q.x == p.targetX
    ensures Abs(p.targetX - p.x) >= SnapDistance ==>
      q.targetX - q.x == (1.0 - FollowStrength) * (p.targetX - p.x)
  {
    var dx := p.targetX - p.x;
    if Abs(dx) < SnapDistance then p.(x := p.targetX)
    else p.(x := p.x + dx * FollowStrength)
  }

  /** Distance still to cover. */
  function Remaining(p: Player): real
  {
    Abs(p.targetX - p.x)
  }

  /** Easing never overshoots: the new position lies between the old one and
      the target, and the remaining distance shrinks unless it is already 0. */
  lemma NoOvershoot(p: Player)
    ensures Min(p.x, p.targetX) <= UpdatePlayerPosition(p).x <= Max(p.x, p.targetX)
    ensures p.x != p.targetX ==> Remaining(UpdatePlayerPosition(p)) < Remaining(p)
    ensures Remaining(p) >= SnapDistance ==>
      Remaining(UpdatePlayerPosition(p)) <= Remaining(p) - FollowStrength * SnapDistance
  {
  }

  /** `n` display frames of easing with the target held fixed. */
  function Ease(p: Player, n: nat): Player
    decreases n
  {
    if n == 0 then p else Ease(UpdatePlayerPosition(p), n - 1)
  }

  /** An avatar on its target stays there. */
  lemma {:induction false} SettledStaysSettled(p: Player, n: nat)
    requires p.x == p.targetX
    ensures Ease(p, n) == p
    decreases n
  {
    if n > 0 {
      assert UpdatePlayerPosition(p) == p;
      SettledStaysSettled(p, n - 1);
    }
  }

  /** Easing reaches the target exactly, in a number of frames bounded by the
      initial distance: each frame that does not snap covers at least
      `FollowStrength * SnapDistance`. */
  lemma {:induction false} EaseSettles(p: Player, n: nat)
    requires n as real * (FollowStrength * SnapDistance) >= Remaining(p)
    ensures Ease(p, n + 1).x == p.targetX
    decreases n
  {
    var q := UpdatePlayerPosition(p);
    NoOvershoot(p);
    if Remaining(p) < SnapDistance {
      SettledStaysSettled(q, n);
    } else {
      assert n >= 1;
      EaseSettles(q, n - 1);
    }
  }
}

=== FILE: entities.dfy ===
/** Obstacles and coins: lane-based entities spawned at the top of the
    track, advanced by their own speed every simulation tick, and dropped
    once past the bottom edge (`spawnObstacle`, `spawnCoin`,
    `moveObstacles`, `moveCoins`). */
module Entities {
  import opened Common
  import Seqs

  /** Index into the three lane columns. */
  type Lane = l: int | 0 <= l < 3

  /** Horizontal pixel centre of each lane. */
  const LaneCenters: seq<real> := [90.0, 210.0, 330.0]

  const ObstacleStartY: real := -50.0
  const CoinStartY: real := -30.0
  const ObstacleBaseSpeed: real := 1.6
  const ObstacleSpeedVariance: real := 0.8
  const ObstacleSpeedRamp: real := 0.012
  const ObstacleMaxSpeed: real := 3.2
  const CoinSpeedBase: real := 2.2
  const CoinSpeedVariance: real := 0.7
  /** How far below the canvas an entity travels before it is dropped. */
  const ObstacleExitMargin: real := 60.0
  const CoinExitMargin: real := 40.0

  /** An obstacle or a coin; both have the same shape. */
  datatype Entity = Entity(lane: Lane, y: real, speed: real)

  function LaneX(l: Lane): real
  {
    LaneCenters[l]
  }

  /** A draw of `Math.random()`. */
  predicate IsDraw(r: real)
  {
    0.0 <= r < 1.0
  }

  /** `Math.floor(Math.random() * lanes.length)`. */
  function LaneOf(r: real): (l: Lane)
    requires IsDraw(r)
    ensures l as real <= 3.0 * r < l as real + 1.0
  {
    (3.0 * r).Floor
  }

  /** Each lane is picked by a third of the draws, so lanes are uniform. */
  lemma LaneOfUniform(r: real, l: Lane)
    requires IsDraw(r)
    ensures LaneOf(r) == l <==> l as real / 3.0 <= r < (l as real + 1.0) / 3.0
  {
  }

  predicate ObstacleSpeedOk(v: real)
  {
    ObstacleBaseSpeed <= v < ObstacleMaxSpeed + ObstacleSpeedVariance
  }

  predicate CoinSpeedOk(v: real)
  {
    CoinSpeedBase <= v < CoinSpeedBase + CoinSpeedVariance
  }

  /** Base speed plus a score ramp capped at `ObstacleMaxSpeed`, plus jitter. */
  function ObstacleSpeed(score: nat, r: real): (v: real)
    requires IsDraw(r)
    ensures ObstacleSpeedOk(v)
    ensures v < ObstacleBaseSpeed + score as real * ObstacleSpeedRamp + ObstacleSpeedVariance
  {
    ObstacleBaseSpeed
      + Min(score as real * ObstacleSpeedRamp, ObstacleMaxSpeed - ObstacleBaseSpeed)
      + r * ObstacleSpeedVariance
  }

  /** Difficulty never decreases with score. */
  lemma ObstacleSpeedMonotone(s1: nat, s2: nat, r: real)
    requires IsDraw(r) && s1 <= s2
    ensures ObstacleSpeed(s1, r) <= ObstacleSpeed(s2, r)
  {
  }

  /** At score 0 the speed is the base speed plus the jitter. */
  lemma ObstacleSpeedAtZero(r: real)
    requires IsDraw(r)
    ensures ObstacleSpeed(0, r) == ObstacleBaseSpeed + r * ObstacleSpeedVariance
  {
  }

  /** Below the cap, each point adds exactly the ramp step to the speed. */
  lemma ObstacleSpeedRampStep(score: nat, r: real)
    requires IsDraw(r)
    requires (score + 1) as real * ObstacleSpeedRamp <= ObstacleMaxSpeed - ObstacleBaseSpeed
    ensures ObstacleSpeed(score + 1, r) == ObstacleSpeed(score, r) + ObstacleSpeedRamp
  {
  }

  /** From score 134 on the ramp is saturated: speed is the maximum plus jitter. */
  lemma ObstacleSpeedSaturates(score: nat, r: real)
    requires IsDraw(r) && score >= 134
    ensures ObstacleSpeed(score, r) == ObstacleMaxSpeed + r * ObstacleSpeedVariance
  {
  }

  /** Base coin speed plus jitter; the draw can be read back from it. */
  function CoinSpeed(r: real): (v: real)
    requires IsDraw(r)
    ensures CoinSpeedOk(v)
    ensures (v - CoinSpeedBase) / CoinSpeedVariance == r
  {
    CoinSpeedBase + r * CoinSpeedVariance
  }

  /** Distinct draws give distinct coin speeds, and the draw is recovered
      from the speed. */
  lemma CoinSpeedRecoversDraw(r1: real, r2: real)
    requires IsDraw(r1) && IsDraw(r2)
    ensures (CoinSpeed(r1) - CoinSpeedBase) / CoinSpeedVariance == r1
    ensures CoinSpeed(r1) == CoinSpeed(r2) <==> r1 == r2
  {
  }

  /** Appends a new obstacle at the top of the lane chosen by `rLane`. */
  function SpawnObstacle(obstacles: seq<Entity>, score: nat, rLane: real, rSpeed: real): (r: seq<Entity>)
    requires IsDraw(rLane) && IsDraw(rSpeed)
    ensures |r| == |obstacles| + 1 && r[..|obstacles|] == obstacles
    ensures r[|obstacles|].y == ObstacleStartY
    ensures r[|obstacles|].lane as real <= 3.0 * rLane < r[|obstacles|].lane as real + 1.0
    ensures ObstacleSpeedOk(r[|obstacles|].speed)
  {
    obstacles + [Entity(LaneOf(rLane), ObstacleStartY, ObstacleSpeed(score, rSpeed))]
  }

  /** Appends a new coin at the top of the lane chosen by `rLane`. */
  function SpawnCoin(coins: seq<Entity>, rLane: real, rSpeed: real): (r: seq<Entity>)
    requires IsDraw(rLane) && IsDraw(rSpeed)
    ensures |r| == |coins| + 1 && r[..|coins|] == coins
    ensures r[|coins|].y == CoinStartY
    ensures r[|coins|].lane as real <= 3.0 * rLane < r[|coins|].lane as real + 1.0
    ensures CoinSpeedOk(r[|coins|].speed)
  {
    coins + [Entity(LaneOf(rLane), CoinStartY, CoinSpeed(rSpeed))]
  }

  /** One tick of fall. */
  function Advance(e: Entity): Entity
  {
    e.(y := e.y + e.speed)
  }

  function AdvanceAll(es: seq<Entity>): (r: seq<Entity>)
    ensures |r| == |es|
    ensures forall k :: 0 <= k < |es| ==> r[k] == Advance(es[k])
  {
    seq(|es|, k requires 0 <= k < |es| => Advance(es[k]))
  }

  /** Still above the exit line `bottom`. */
  function OnScreen(bottom: real): Entity -> bool
  {
    (e: Entity) => e.y < bottom
  }

  /** Advances every entity and drops those now at or below `bottom`. */
  function MoveEntities(es: seq<Entity>, bottom: real): (r: seq<Entity>)
    ensures |r| <= |es|
    ensures forall k :: 0 <= k < |r| ==> r[k].y < bottom
    ensures |r| == |es| <==> forall i :: 0 <= i < |es| ==> es[i].y + es[i].speed < bottom
  {
    Seqs.Filter(AdvanceAll(es), OnScreen(bottom))
  }

  function MoveObstacles(obstacles: seq<Entity>, height: real): (r: seq<Entity>)
    ensures forall k :: 0 <= k < |r| ==> r[k].y < height + ObstacleExitMargin
  {
    MoveEntities(obstacles, height + ObstacleExitMargin)
  }

  function MoveCoins(coins: seq<Entity>, height: real): (r: seq<Entity>)
    ensures forall k :: 0 <= k < |r| ==> r[k].y < height + CoinExitMargin
  {
    MoveEntities(coins, height + CoinExitMargin)
  }

  /** The survivors of a move, in their original order, are exactly the
      entities whose advanced position is above `bottom`; each fell by its
      own speed and kept its lane and speed. */
  lemma MoveEntitiesSpec(es: seq<Entity>, bottom: real)
    ensures var r, idx := MoveEntities(es, bottom), Seqs.Kept(AdvanceAll(es), OnScreen(bottom), 0);
      && Seqs.SelectsAt(r, AdvanceAll(es), idx)
      && (forall k :: 0 <= k < |r| ==>
            r[k].lane == es[idx[k]].lane && r[k].speed == es[idx[k]].speed
            && r[k].y == es[idx[k]].y + es[idx[k]].speed)
      && (forall i :: 0 <= i < |es| ==> (i in idx <==> es[i].y + es[i].speed < bottom))
  {
    var moved := AdvanceAll(es);
    Seqs.FilterPreservesOrder(moved, OnScreen(bottom));
  }

  /** Moving a list that ends with `e` keeps `e`, advanced, at its end when
      it is still on screen. */
  lemma MoveKeepsLast(es: seq<Entity>, e: Entity, bottom: real)
    requires e.y + e.speed < bottom
    ensures MoveEntities(es + [e], bottom) == MoveEntities(es, bottom) + [Advance(e)]
  {
    assert AdvanceAll(es + [e]) == AdvanceAll(es) + [Advance(e)];
    Seqs.FilterAppend(AdvanceAll(es), Advance(e), OnScreen(bottom));
  }

  /** Every entity moves at a speed in `[minSpeed, maxSpeed)` and is strictly
      between the spawn row `top` and the exit line `bottom`. */
  ghost predicate Falling(es: seq<Entity>, top: real, bottom: real, minSpeed: real, maxSpeed: real)
  {
    forall k :: 0 <= k < |es| ==> minSpeed <= es[k].speed < maxSpeed && top < es[k].y < bottom
  }

  /** As `Falling`, before the move: entities may still sit on the spawn row. */
  ghost predicate FallingFrom(es: seq<Entity>, top: real, minSpeed: real, maxSpeed: real)
  {
    forall k :: 0 <= k < |es| ==> minSpeed <= es[k].speed < maxSpeed && top <= es[k].y
  }

  /** With positive speeds, a move leaves every survivor strictly below the
      spawn row and above the exit line, at its old speed. */
  lemma MovePreservesFalling(es: seq<Entity>, top: real, bottom: real, minSpeed: real, maxSpeed: real)
    requires minSpeed > 0.0
    requires FallingFrom(es, top, minSpeed, maxSpeed)
    ensures Falling(MoveEntities(es, bottom), top, bottom, minSpeed, maxSpeed)
  {
    var r := MoveEntities(es, bottom);
    forall k | 0 <= k < |r|
      ensures minSpeed <= r[k].speed < maxSpeed && top < r[k].y < bottom
    {
      var moved := AdvanceAll(es);
      assert r[k] in moved;
      var i :| 0 <= i < |moved| && moved[i] == r[k];
      assert r[k] == Advance(es[i]);
    }
  }

  /** `n` ticks of obstacle movement. */
  function MoveObstaclesFor(obstacles: seq<Entity>, height: real, n: nat): seq<Entity>
    decreases n
  {
    if n == 0 then obstacles else MoveObstaclesFor(MoveObstacles(obstacles, height), height, n - 1)
  }

  /** The distance covered in `n` ticks at speed `v`, tick by tick. */
  function Drop(v: real, n: nat): real
    decreases n
  {
    if n == 0 then 0.0 else Drop(v, n - 1) + v
  }

  /** The fall is linear in the number of ticks. */
  lemma {:induction false} DropIsProduct(v: real, n: nat)
    ensures Drop(v, n) == n as real * v
    decreases n
  {
    if n > 0 {
      DropIsProduct(v, n - 1);
      assert n as real * v == (n - 1) as real * v + v;
    }
  }

  lemma {:induction false} DropNonNegative(v: real, n: nat)
    requires v >= 0.0
    ensures Drop(v, n) >= 0.0
    decreases n
  {
    if n > 0 {
      DropNonNegative(v, n - 1);
    }
  }

  /** A lone obstacle falls by its speed every tick, `Drop(speed, n)` in all
      after `n` ticks, as long as it stays above the exit line. */
  lemma {:induction false} FallsLinearly(e: Entity, height: real, n: nat)
    requires e.speed > 0.0
    requires e.y + Drop(e.speed, n) < height + ObstacleExitMargin
    ensures MoveObstaclesFor([e], height, n) == [e.(y := e.y + Drop(e.speed, n))]
    decreases n
  {
    if n > 0 {
      var e' := Advance(e);
      assert e'.speed == e.speed && e'.y + Drop(e'.speed, n - 1) == e.y + Drop(e.speed, n);
      DropNonNegative(e.speed, n - 1);
      MoveSingle(e, height + ObstacleExitMargin);
      FallsLinearly(e', height, n - 1);
    }
  }

  /** A single entity still on screen after its step is kept, advanced. */
  lemma MoveSingle(e: Entity, bottom: real)
    requires e.y + e.speed < bottom
    ensures MoveEntities([e], bottom) == [Advance(e)]
  {
    MoveKeepsLast([], e, bottom);
    assert [] + [e] == [e];
  }

  /** An obstacle spawned in lane 1 at speed 4 is at y = 10 fifteen ticks later. */
  lemma FifteenTicksScenario(height: real)
    requires height >= 0.0
    ensures MoveObstaclesFor([Entity(1, ObstacleStartY, 4.0)], height, 15) == [Entity(1, 10.0, 4.0)]
  {
    DropIsProduct(4.0, 15);
    FallsLinearly(Entity(1, ObstacleStartY, 4.0), height, 15);
  }
}

=== FILE: game.dfy ===
/** The game session and its three loop bodies: the simulation tick
    (`updateGame`), the display-frame step (`animationLoop`) and the camera
    step (`processMotionFrame`), plus the button and quiz transitions
    (`startGame`, `resetGame`, `openQuiz` and the quiz's resume callback).
    The module-level `let` variables of the script are one immutable
    `Session` value threaded through pure step functions. */
module Game {
  import opened Common
  import opened Motion
  import opened Controller
  import opened Entities
  import opened Collision
  import opened Metrics

  const ObstacleSpawnInterval: nat := 65
  const CoinSpawnInterval: nat := 210
  /** Smoothed signal at launch and after a reset: the centre of the view. */
  const CenterSignal: real := 0.5

  datatype Session = Session(
    player: Player,
    obstacles: seq<Entity>,
    coins: seq<Entity>,
    score: nat,
    frameCounter: nat,
    gameOver: bool,
    isRunning: bool,
    quizActive: bool,
    highScore: int,
    smoothedMotionX: real,
    previousLuma: Option<seq<Byte>>,
    metrics: MetricsState)

  /** The `Math.random()` draws a tick may consume: the lane and speed of an
      obstacle spawned on a 65th tick and of a coin spawned on a 210th. */
  datatype Draws = Draws(obstacleLane: real, obstacleSpeed: real, coinLane: real, coinSpeed: real)

  predicate DrawsOk(d: Draws)
  {
    IsDraw(d.obstacleLane) && IsDraw(d.obstacleSpeed) && IsDraw(d.coinLane) && IsDraw(d.coinSpeed)
  }

  /** The counters, flags and signals of a reachable session: the score is
      the number of completed 65-tick periods, there are at most as many
      obstacles as points and coins as 210-tick periods, a running game is
      not over, the best score is at least the score, the smoothed signal is
      in the unit interval, and a reaction time is only recorded after a
      spawn. */
  ghost predicate Bookkeeping(s: Session)
  {
    && s.score == s.frameCounter / ObstacleSpawnInterval
    && |s.obstacles| <= s.score
    && |s.coins| <= s.frameCounter / CoinSpawnInterval
    && (s.isRunning ==> !s.gameOver)
    && s.highScore >= s.score
    && 0.0 <= s.smoothedMotionX <= 1.0
    && s.metrics.maxHorizontalSpeed >= 0.0
    && (s.metrics.reactionMs.Some? ==> s.metrics.movementStartTime.Some? && s.metrics.reactionMs.value >= 0)
  }

  /** What every reachable session satisfies, for a game canvas of height
      `height`: its bookkeeping holds and every obstacle and coin is on its
      way down at a speed its spawn function can produce. */
  ghost predicate Valid(s: Session, height: real)
  {
    && Bookkeeping(s)
    && Falling(s.obstacles, ObstacleStartY, height + ObstacleExitMargin, ObstacleBaseSpeed, ObstacleMaxSpeed + ObstacleSpeedVariance)
    && Falling(s.coins, CoinStartY, height + CoinExitMargin, CoinSpeedBase, CoinSpeedBase + CoinSpeedVariance)
  }

  /** A session between spawning and moving: new entities may still sit on
      their spawn row. */
  ghost predicate ReadyToMove(s: Session)
  {
    && Bookkeeping(s)
    && FallingFrom(s.obstacles, ObstacleStartY, ObstacleBaseSpeed, ObstacleMaxSpeed + ObstacleSpeedVariance)
    && FallingFrom(s.coins, CoinStartY, CoinSpeedBase, CoinSpeedBase + CoinSpeedVariance)
  }

  /** The session the page starts with: avatar centred on a canvas of width
      `width`, clock read at `now`, best score read from storage. */
  function InitialSession(width: real, now: real, storedHighScore: int): (s: Session)
    ensures !s.isRunning && !s.gameOver && !s.quizActive
    ensures s.previousLuma.None?
    ensures s.player.x == s.player.targetX == width / 2.0
    ensures s.highScore == storedHighScore && s.score == 0 && s.frameCounter == 0
    ensures s.obstacles == [] && s.coins == []
    ensures s.metrics.lastPlayerUpdate == now && s.metrics.lastPlayerX == s.metrics.previousTargetX == s.player.x
    ensures s.metrics.movementStartTime.None? && s.metrics.reactionMs.None? && s.metrics.maxHorizontalSpeed == 0.0
  {
    Session(
      Player(width / 2.0, width / 2.0), [], [], 0, 0, false, false, false, storedHighScore,
      CenterSignal, None,
      MetricsState(width / 2.0, now, 0.0, None, None, width / 2.0))
  }

  /** `resetGame`: a fresh run. The running flag, the best score, the stored
      luma buffer and the metrics clock are left as they were. */
  function ResetGame(s: Session, width: real): (s': Session)
    ensures s'.obstacles == [] && s'.coins == [] && s'.score == 0 && s'.frameCounter == 0
    ensures !s'.gameOver && !s'.quizActive
    ensures s'.isRunning == s.isRunning && s'.highScore == s.highScore
    ensures s'.previousLuma == s.previousLuma
    ensures s'.metrics.lastPlayerUpdate == s.metrics.lastPlayerUpdate
    ensures s'.metrics.reactionMs.None? && s'.metrics.movementStartTime.None?
    ensures s'.player.x == s'.player.targetX == s'.metrics.lastPlayerX == s'.metrics.previousTargetX == width / 2.0
    ensures s'.smoothedMotionX == CenterSignal && s'.metrics.maxHorizontalSpeed == 0.0
  {
    s.(obstacles := [], coins := [], score := 0, frameCounter := 0, gameOver := false,
       player := Player(width / 2.0, width / 2.0),
       smoothedMotionX := CenterSignal,
       metrics := s.metrics.(lastPlayerX := width / 2.0, previousTargetX := width / 2.0,
                             maxHorizontalSpeed := 0.0, movementStartTime := None, reactionMs := None),
       quizActive := false)
  }

  /** Resetting the launch session gives it back, and resetting twice is
      resetting once. */
  lemma ResetRestoresLaunchState(width: real, now: real, storedHighScore: int, s: Session)
    ensures ResetGame(InitialSession(width, now, storedHighScore), width) == InitialSession(width, now, storedHighScore)
    ensures ResetGame(ResetGame(s, width), width) == ResetGame(s, width)
  {
  }

  /** A reset session is valid whenever the best score is not negative. */
  lemma ResetIsValid(s: Session, width: real, height: real)
    requires s.highScore >= 0
    requires s.isRunning ==> !s.gameOver
    ensures Valid(ResetGame(s, width), height)
  {
  }

  lemma InitialIsValid(width: real, now: real, storedHighScore: int, height: real)
    requires storedHighScore >= 0
    ensures Valid(InitialSession(width, now, storedHighScore), height)
  {
  }

  /** `startGame`: starts a stopped session, resetting it first after a
      game over; a running session is left alone. */
  function StartGame(s: Session, width: real): (s': Session)
    ensures s'.isRunning
    ensures s.isRunning ==> s' == s
    ensures !s.isRunning && s.gameOver ==> s' == ResetGame(s, width).(isRunning := true)
    ensures !s.isRunning && !s.gameOver ==> s' == s.(isRunning := true)
    ensures !s.isRunning ==> !s'.gameOver
  {
    if s.isRunning then s
    else
      var stopped := if s.gameOver then ResetGame(s, width) else s;
      stopped.(isRunning := true)
  }

  lemma StartPreservesValid(s: Session, width: real, height: real)
    requires Valid(s, height)
    ensures Valid(StartGame(s, width), height)
  {
    if !s.isRunning && s.gameOver {
      ResetIsValid(s, width, height);
    }
  }

  /** The state effect of `openQuiz`: the simulation pauses, and answering
      the quiz gives back the running session it interrupted. */
  function OpenQuiz(s: Session): (s': Session)
    ensures s'.quizActive && !s'.isRunning
    ensures s.isRunning && !s.gameOver && !s.quizActive ==> ResumeQuiz(s') == s
    ensures s' == s.(quizActive := s'.quizActive, isRunning := s'.isRunning)
  {
    s.(quizActive := true, isRunning := false)
  }

  /** The state effect of answering the quiz (after its delay): the quiz
      closes and the run resumes unless it ended meanwhile. */
  function ResumeQuiz(s: Session): (s': Session)
    ensures !s'.quizActive
    ensures !s.gameOver ==> s'.isRunning
    ensures s.gameOver ==> s'.isRunning == s.isRunning
    ensures s' == s.(quizActive := false, isRunning := s'.isRunning)
  {
    s.(quizActive := false, isRunning := if !s.gameOver then true else s.isRunning)
  }

  /** While the quiz is showing, a simulation tick changes nothing. */
  lemma QuizPausesSimulation(s: Session, now: real, d: Draws, height: real)
    requires DrawsOk(d)
    ensures UpdateGame(OpenQuiz(s), now, d, height) == OpenQuiz(s)
  {
  }

  lemma QuizPreservesValid(s: Session, height: real)
    requires Valid(s, height)
    ensures Valid(OpenQuiz(s), height)
    ensures Valid(ResumeQuiz(s), height)
  {
  }

  /** The spawn branch of `updateGame`: a new obstacle, the reaction clock
      restarted, one more point, and a new best score if beaten. */
  function ObstacleTick(s: Session, now: real, d: Draws): (s': Session)
    requires DrawsOk(d)
    ensures s'.score == s.score + 1
    ensures s'.highScore >= s.highScore && s'.highScore >= s'.score
    ensures s'.highScore == s.highScore || s'.highScore == s'.score
    ensures |s'.obstacles| == |s.obstacles| + 1 && s'.obstacles[..|s.obstacles|] == s.obstacles
    ensures s'.obstacles[|s.obstacles|] ==
      Entity(LaneOf(d.obstacleLane), ObstacleStartY, ObstacleSpeed(s.score, d.obstacleSpeed))
    ensures s'.metrics.movementStartTime == Some(now) && s'.metrics.reactionMs.None?
    ensures s'.metrics.(movementStartTime := s.metrics.movementStartTime, reactionMs := s.metrics.reactionMs) == s.metrics
    ensures s' == s.(score := s'.score, highScore := s'.highScore, obstacles := s'.obstacles, metrics := s'.metrics)
  {
    var score := s.score + 1;
    s.(obstacles := SpawnObstacle(s.obstacles, s.score, d.obstacleLane, d.obstacleSpeed),
       metrics := s.metrics.(movementStartTime := Some(now), reactionMs := None),
       score := score,
       highScore := if score > s.highScore then score else s.highScore)
  }

  /** `checkCoinCollection`: a coin under the avatar is removed and opens
      the quiz; nothing happens while a quiz is showing. */
  function CheckCoinCollection(s: Session): (s': Session)
    ensures s.quizActive ==> s' == s
    ensures !s.quizActive ==> s'.coins == CollectCoins(s.coins, s.player.x).remaining
    ensures !s.quizActive ==>
      (s'.quizActive <==> exists i :: 0 <= i < |s.coins| && CoinHit(s.coins[i], s.player.x))
    ensures !s.quizActive ==> s'.isRunning == (s.isRunning && !s'.quizActive)
    ensures s'.obstacles == s.obstacles && s'.metrics == s.metrics && s'.player == s.player
    ensures s' == s.(coins := s'.coins, quizActive := s'.quizActive, isRunning := s'.isRunning)
  {
    if s.quizActive then s
    else
      var pickup := CollectCoins(s.coins, s.player.x);
      var s1 := s.(coins := pickup.remaining);
      if pickup.collected then OpenQuiz(s1) else s1
  }

  /** The spawn part of `updateGame`, for a tick already counted in
      `s.frameCounter`: an obstacle every 65th tick, a coin every 210th. */
  function SpawnPhase(s: Session, now: real, d: Draws): (s': Session)
    requires DrawsOk(d)
    ensures s'.frameCounter == s.frameCounter
    ensures s'.score == s.score + (if s.frameCounter % ObstacleSpawnInterval == 0 then 1 else 0)
    ensures s'.highScore >= s.highScore && (s.highScore >= s.score ==> s'.highScore >= s'.score)
    ensures s.highScore >= s.score ==> s'.highScore == (if s'.score > s.highScore then s'.score else s.highScore)
    ensures s'.obstacles ==
      if s.frameCounter % ObstacleSpawnInterval == 0
      then SpawnObstacle(s.obstacles, s.score, d.obstacleLane, d.obstacleSpeed)
      else s.obstacles
    ensures s'.coins ==
      if s.frameCounter % CoinSpawnInterval == 0
      then SpawnCoin(s.coins, d.coinLane, d.coinSpeed)
      else s.coins
    ensures s.frameCounter % ObstacleSpawnInterval == 0 ==>
      s'.metrics == s.metrics.(movementStartTime := Some(now), reactionMs := None)
    ensures s.frameCounter % ObstacleSpawnInterval != 0 ==> s'.metrics == s.metrics
    ensures s' == s.(score := s'.score, highScore := s'.highScore, obstacles := s'.obstacles,
                     coins := s'.coins, metrics := s'.metrics)
  {
    var s1 := if s.frameCounter % ObstacleSpawnInterval == 0 then ObstacleTick(s, now, d) else s;
    if s.frameCounter % CoinSpawnInterval == 0
    then s1.(coins := SpawnCoin(s1.coins, d.coinLane, d.coinSpeed))
    else s1
  }

  /** `moveObstacles` and `moveCoins` applied to the session. */
  function MovePhase(s: Session, height: real): (s': Session)
    ensures |s'.obstacles| <= |s.obstacles| && |s'.coins| <= |s.coins|
    ensures s' == s.(obstacles := s'.obstacles, coins := s'.coins)
  {
    s.(obstacles := MoveObstacles(s.obstacles, height), coins := MoveCoins(s.coins, height))
  }

  /** The end of `updateGame`: any obstacle touching the avatar ends the run. */
  function CollisionPhase(s: Session): (s': Session)
    ensures s'.gameOver <==> s.gameOver || CheckCollision(s.obstacles, s.player.x)
    ensures CheckCollision(s.obstacles, s.player.x) ==> !s'.isRunning
    ensures !CheckCollision(s.obstacles, s.player.x) ==> s' == s
    ensures s'.obstacles == s.obstacles && s'.coins == s.coins && s'.metrics == s.metrics
    ensures s' == s.(gameOver := s'.gameOver, isRunning := s'.isRunning)
  {
    if CheckCollision(s.obstacles, s.player.x) then s.(gameOver := true, isRunning := false) else s
  }

  /** `updateGame`: one simulation tick. `now` is the clock at the tick and
      `height` the game canvas height. */
  function UpdateGame(s: Session, now: real, d: Draws, height: real): (s': Session)
    requires DrawsOk(d)
    ensures !s.isRunning || s.quizActive ==> s' == s
    ensures s.isRunning && !s.quizActive ==> s'.frameCounter == s.frameCounter + 1
    ensures s.isRunning && !s.quizActive ==>
      (s'.score == s.score + 1 <==> s'.frameCounter % ObstacleSpawnInterval == 0)
    ensures s'.score == s.score || s'.score == s.score + 1
    ensures s'.highScore >= s.highScore
    ensures s.highScore >= s.score ==> s'.highScore >= s'.score
    ensures s.isRunning && !s.quizActive ==>
      (s'.gameOver <==> s.gameOver || CheckCollision(s'.obstacles, s'.player.x))
    ensures CheckCollision(s'.obstacles, s'.player.x) && s.isRunning && !s.quizActive ==>
      s'.gameOver && !s'.isRunning
    ensures s'.player == s.player && s'.smoothedMotionX == s.smoothedMotionX
    ensures s'.previousLuma == s.previousLuma
  {
    if !s.isRunning || s.quizActive then s else RunningTick(s, now, d, height)
  }

  /** The session with the current tick counted. */
  function Counted(s: Session): (c: Session)
    ensures c.frameCounter == s.frameCounter + 1 && c.score == s.score && c.highScore == s.highScore
    ensures c.obstacles == s.obstacles && c.coins == s.coins && c.metrics == s.metrics && c.player == s.player
    ensures c.isRunning == s.isRunning && c.quizActive == s.quizActive && c.gameOver == s.gameOver
  {
    s.(frameCounter := s.frameCounter + 1)
  }

  /** The body of `updateGame` past its guard: count the tick, spawn, move,
      pick up coins, test for a collision. */
  function RunningTick(s: Session, now: real, d: Draws, height: real): Session
    requires DrawsOk(d)
  {
    CollisionPhase(CheckCoinCollection(MovePhase(SpawnPhase(Counted(s), now, d), height)))
  }

  /** On a tick that is not a multiple of 65 the existing obstacles only move. */
  lemma NoObstacleSpawned(s: Session, now: real, d: Draws, height: real)
    requires DrawsOk(d) && s.isRunning && !s.quizActive
    requires (s.frameCounter + 1) % ObstacleSpawnInterval != 0
    ensures UpdateGame(s, now, d, height).obstacles == MoveObstacles(s.obstacles, height)
    ensures UpdateGame(s, now, d, height).metrics == s.metrics
  {
    TickMovesSpawned(s, now, d, height);
    NoSpawnOffObstacleTick(s, now, d);
  }

  /** After the spawn phase, a running tick moves the entities, drops the
      coins under the avatar and leaves the metrics alone. */
  lemma TickMovesSpawned(s: Session, now: real, d: Draws, height: real)
    requires DrawsOk(d) && s.isRunning && !s.quizActive
    ensures var spawned := SpawnPhase(Counted(s), now, d);
      && UpdateGame(s, now, d, height).obstacles == MoveObstacles(spawned.obstacles, height)
      && UpdateGame(s, now, d, height).coins == CollectCoins(MoveCoins(spawned.coins, height), s.player.x).remaining
      && UpdateGame(s, now, d, height).metrics == spawned.metrics
  {
    RunningTickFields(s, now, d, height);
  }

  lemma RunningTickFields(s: Session, now: real, d: Draws, height: real)
    requires DrawsOk(d) && !s.quizActive
    ensures var spawned := SpawnPhase(Counted(s), now, d);
      && RunningTick(s, now, d, height).obstacles == MoveObstacles(spawned.obstacles, height)
      && RunningTick(s, now, d, height).coins == CollectCoins(MoveCoins(spawned.coins, height), s.player.x).remaining
      && RunningTick(s, now, d, height).metrics == spawned.metrics
  {
    var spawned := SpawnPhase(Counted(s), now, d);
    var moved := MovePhase(spawned, height);
    assert moved.obstacles == MoveObstacles(spawned.obstacles, height) && moved.metrics == spawned.metrics;
    assert moved.coins == MoveCoins(spawned.coins, height);
    var picked := CheckCoinCollection(moved);
    assert RunningTick(s, now, d, height) == CollisionPhase(picked);
    assert picked.obstacles == moved.obstacles && picked.metrics == moved.metrics;
    assert picked.coins == CollectCoins(moved.coins, s.player.x).remaining;
  }

  /** After a running tick the quiz is showing exactly when a moved coin
      lies under the avatar, the run goes on exactly when neither the quiz
      opened nor an obstacle hit, and the best score is the larger of the
      old best and the new score. */
  lemma TickFlags(s: Session, now: real, d: Draws, height: real)
    requires DrawsOk(d) && s.isRunning && !s.quizActive && s.highScore >= s.score
    ensures var s' := UpdateGame(s, now, d, height);
      var moved := MoveCoins(SpawnPhase(Counted(s), now, d).coins, height);
      && (s'.quizActive <==> exists i :: 0 <= i < |moved| && CoinHit(moved[i], s.player.x))
      && (s'.isRunning <==> !s'.quizActive && !CheckCollision(s'.obstacles, s.player.x))
      && s'.highScore == (if s'.score > s.highScore then s'.score else s.highScore)
  {
    RunningTickFlags(s, now, d, height);
    RunningTickBest(s, now, d, height);
  }

  lemma RunningTickFlags(s: Session, now: real, d: Draws, height: real)
    requires DrawsOk(d) && !s.quizActive
    ensures var s' := RunningTick(s, now, d, height);
      var moved := MoveCoins(SpawnPhase(Counted(s), now, d).coins, height);
      && (s'.quizActive <==> exists i :: 0 <= i < |moved| && CoinHit(moved[i], s.player.x))
      && (s.isRunning ==> (s'.isRunning <==> !s'.quizActive && !CheckCollision(s'.obstacles, s.player.x)))
  {
    var spawned := SpawnPhase(Counted(s), now, d);
    var moved := MovePhase(spawned, height);
    var picked := CheckCoinCollection(moved);
    assert RunningTick(s, now, d, height) == CollisionPhase(picked);
    assert moved.coins == MoveCoins(spawned.coins, height) && moved.player == s.player;
    assert picked.isRunning == (s.isRunning && !picked.quizActive);
  }

  lemma RunningTickBest(s: Session, now: real, d: Draws, height: real)
    requires DrawsOk(d) && s.highScore >= s.score
    ensures var s' := RunningTick(s, now, d, height);
      s'.highScore == (if s'.score > s.highScore then s'.score else s.highScore)
  {
    var spawned := SpawnPhase(Counted(s), now, d);
    var moved := MovePhase(spawned, height);
    var picked := CheckCoinCollection(moved);
    assert RunningTick(s, now, d, height) == CollisionPhase(picked);
    assert picked.highScore == spawned.highScore && picked.score == spawned.score;
  }

  /** On every 65th tick an obstacle enters at the top of the lane drawn,
      at the speed drawn for the current score: after the tick it is the last
      obstacle, one step down. */
  lemma ObstacleSpawned(s: Session, now: real, d: Draws, height: real)
    requires DrawsOk(d) && s.isRunning && !s.quizActive && height >= 0.0
    requires (s.frameCounter + 1) % ObstacleSpawnInterval == 0
    ensures UpdateGame(s, now, d, height).obstacles ==
      MoveObstacles(s.obstacles, height) + [SpawnedObstacleAfterMove(s.score, d)]
  {
    TickMovesSpawned(s, now, d, height);
    var o := Entity(LaneOf(d.obstacleLane), ObstacleStartY, ObstacleSpeed(s.score, d.obstacleSpeed));
    SpawnOnObstacleTick(s, now, d);
    MoveKeepsLast(s.obstacles, o, height + ObstacleExitMargin);
    assert Advance(o) == SpawnedObstacleAfterMove(s.score, d);
  }

  /** The same spawn tick restarts the reaction clock at `now` and clears the
      previous reaction time. */
  lemma SpawnRestartsReactionClock(s: Session, now: real, d: Draws, height: real)
    requires DrawsOk(d) && s.isRunning && !s.quizActive
    requires (s.frameCounter + 1) % ObstacleSpawnInterval == 0
    ensures UpdateGame(s, now, d, height).metrics.movementStartTime == Some(now)
    ensures UpdateGame(s, now, d, height).metrics.reactionMs.None?
  {
    TickMovesSpawned(s, now, d, height);
    SpawnOnObstacleTick(s, now, d);
  }

  /** The spawn phase of a 65th tick appends the drawn obstacle and
      restarts the reaction clock. */
  lemma SpawnOnObstacleTick(s: Session, now: real, d: Draws)
    requires DrawsOk(d) && (s.frameCounter + 1) % ObstacleSpawnInterval == 0
    ensures var spawned := SpawnPhase(Counted(s), now, d);
      && spawned.obstacles == s.obstacles + [Entity(LaneOf(d.obstacleLane), ObstacleStartY, ObstacleSpeed(s.score, d.obstacleSpeed))]
      && spawned.metrics.movementStartTime == Some(now) && spawned.metrics.reactionMs.None?
  {
    var spawned := SpawnPhase(Counted(s), now, d);
    assert Counted(s).frameCounter % ObstacleSpawnInterval == 0;
    assert spawned.obstacles == SpawnObstacle(s.obstacles, s.score, d.obstacleLane, d.obstacleSpeed);
  }

  /** On other ticks the spawn phase leaves the obstacles and the metrics alone. */
  lemma NoSpawnOffObstacleTick(s: Session, now: real, d: Draws)
    requires DrawsOk(d) && (s.frameCounter + 1) % ObstacleSpawnInterval != 0
    ensures var spawned := SpawnPhase(Counted(s), now, d);
      spawned.obstacles == s.obstacles && spawned.metrics == s.metrics
  {
    assert Counted(s).frameCounter % ObstacleSpawnInterval != 0;
  }

  /** The obstacle a spawn tick adds, after the tick's move. */
  function SpawnedObstacleAfterMove(score: nat, d: Draws): (o: Entity)
    requires DrawsOk(d)
    ensures o.y == ObstacleStartY + o.speed && ObstacleSpeedOk(o.speed)
    ensures o.lane as real <= 3.0 * d.obstacleLane < o.lane as real + 1.0
  {
    var v := ObstacleSpeed(score, d.obstacleSpeed);
    Entity(LaneOf(d.obstacleLane), ObstacleStartY + v, v)
  }

  /** On every 210th tick a coin enters at the top of the lane drawn; it is
      far above the avatar, so after the tick it is the last coin, one step
      down. */
  lemma CoinSpawned(s: Session, now: real, d: Draws, height: real)
    requires DrawsOk(d) && s.isRunning && !s.quizActive && height >= 0.0
    requires (s.frameCounter + 1) % CoinSpawnInterval == 0
    ensures var s', v := UpdateGame(s, now, d, height), CoinSpeed(d.coinSpeed);
      |s'.coins| > 0 && s'.coins[|s'.coins| - 1] == Entity(LaneOf(d.coinLane), CoinStartY + v, v)
  {
    TickMovesSpawned(s, now, d, height);
    var spawned := SpawnPhase(Counted(s), now, d);
    var v := CoinSpeed(d.coinSpeed);
    var c := Entity(LaneOf(d.coinLane), CoinStartY, v);
    assert spawned.coins == s.coins + [c];
    MoveKeepsLast(s.coins, c, height + CoinExitMargin);
    HighCoinSurvives(MoveCoins(s.coins, height), Advance(c), s.player.x);
  }

  /** Ticks `n` and `n + 1` fall in the same spawn period unless `n + 1`
      starts a new one. */
  lemma NextQuotient(n: nat)
    ensures (n + 1) / ObstacleSpawnInterval == n / ObstacleSpawnInterval + (if (n + 1) % ObstacleSpawnInterval == 0 then 1 else 0)
    ensures (n + 1) / CoinSpawnInterval == n / CoinSpawnInterval + (if (n + 1) % CoinSpawnInterval == 0 then 1 else 0)
  {
  }

  /** Picking up coins only removes coins, so they keep falling as before. */
  lemma PickupPreservesFalling(coins: seq<Entity>, playerX: real, top: real, bottom: real, minSpeed: real, maxSpeed: real)
    requires Falling(coins, top, bottom, minSpeed, maxSpeed)
    ensures Falling(CollectCoins(coins, playerX).remaining, top, bottom, minSpeed, maxSpeed)
  {
    var r := CollectCoins(coins, playerX).remaining;
    forall k | 0 <= k < |r|
      ensures minSpeed <= r[k].speed < maxSpeed && top < r[k].y < bottom
    {
      assert r[k] in coins;
    }
  }

  lemma SpawnPhaseReady(s: Session, now: real, d: Draws, height: real)
    requires DrawsOk(d) && Valid(s, height)
    ensures ReadyToMove(SpawnPhase(Counted(s), now, d))
  {
    NextQuotient(s.frameCounter);
  }

  lemma MovePhaseValid(s: Session, height: real)
    requires ReadyToMove(s)
    ensures Valid(MovePhase(s, height), height)
  {
    MovePreservesFalling(s.obstacles, ObstacleStartY, height + ObstacleExitMargin, ObstacleBaseSpeed, ObstacleMaxSpeed + ObstacleSpeedVariance);
    MovePreservesFalling(s.coins, CoinStartY, height + CoinExitMargin, CoinSpeedBase, CoinSpeedBase + CoinSpeedVariance);
  }

  lemma PickupValid(s: Session, height: real)
    requires Valid(s, height)
    ensures Valid(CheckCoinCollection(s), height)
  {
    PickupPreservesFalling(s.coins, s.player.x, CoinStartY, height + CoinExitMargin, CoinSpeedBase, CoinSpeedBase + CoinSpeedVariance);
  }

  lemma CollisionValid(s: Session, height: real)
    requires Valid(s, height)
    ensures Valid(CollisionPhase(s), height)
  {
  }

  /** The simulation tick keeps the session valid; in particular the score
      is always the number of completed 65-tick periods. */
  lemma UpdateGamePreservesValid(s: Session, now: real, d: Draws, height: real)
    requires DrawsOk(d) && Valid(s, height)
    ensures Valid(UpdateGame(s, now, d, height), height)
  {
    if s.isRunning && !s.quizActive {
      RunningTickValid(s, now, d, height);
    }
  }

  lemma RunningTickValid(s: Session, now: real, d: Draws, height: real)
    requires DrawsOk(d) && Valid(s, height)
    ensures Valid(RunningTick(s, now, d, height), height)
  {
    var spawned := SpawnPhase(Counted(s), now, d);
    var moved := MovePhase(spawned, height);
    SpawnPhaseReady(s, now, d, height);
    MovePhaseValid(spawned, height);
    PickupValid(moved, height);
    CollisionValid(CheckCoinCollection(moved), height);
    assert RunningTick(s, now, d, height) == CollisionPhase(CheckCoinCollection(moved));
  }

  /** `animationLoop` without drawing: ease the avatar, then update the
      reaction time and the speed readout with the clock at `now`. */
  function AnimationStep(s: Session, now: real): (s': Session)
    ensures s'.player.targetX == s.player.targetX
    ensures Remaining(s.player) < SnapDistance ==> s'.player.x == s.player.targetX
    ensures Remaining(s.player) >= SnapDistance ==>
      s'.player.targetX - s'.player.x == (1.0 - FollowStrength) * (s.player.targetX - s.player.x)
    ensures Remaining(s'.player) <= Remaining(s.player)
    ensures s'.metrics.maxHorizontalSpeed ==
      Max(s.metrics.maxHorizontalSpeed, HorizontalSpeed(s.metrics.lastPlayerX, s'.player.x, s.metrics.lastPlayerUpdate, now))
    ensures s'.metrics.lastPlayerX == s'.player.x && s'.metrics.lastPlayerUpdate == now
    ensures s'.metrics.maxHorizontalSpeed >= s.metrics.maxHorizontalSpeed
    ensures s.metrics.reactionMs.Some? ==> s'.metrics.reactionMs == s.metrics.reactionMs
    ensures (s.metrics.movementStartTime.Some? && s.metrics.reactionMs.None?
             && MovedEnough(s.metrics.previousTargetX, s.player.targetX)) ==>
      s'.metrics.reactionMs == Some(ReactionValue(s.metrics.movementStartTime.value, now))
    ensures s'.metrics.reactionMs != s.metrics.reactionMs ==>
      s.metrics.movementStartTime.Some? && s.metrics.reactionMs.None?
      && MovedEnough(s.metrics.previousTargetX, s.player.targetX)
    ensures MovedEnough(s.metrics.previousTargetX, s.player.targetX) ==>
      s'.metrics.previousTargetX == s.player.targetX
    ensures !MovedEnough(s.metrics.previousTargetX, s.player.targetX) ==>
      s'.metrics.previousTargetX == s.metrics.previousTargetX
    ensures s'.metrics.movementStartTime == s.metrics.movementStartTime
    ensures s' == s.(player := s'.player, metrics := s'.metrics)
  {
    var player := UpdatePlayerPosition(s.player);
    NoOvershoot(s.player);
    var m := MaybeRecordReaction(s.metrics, player.targetX, now);
    s.(player := player, metrics := UpdatePhysicsMetrics(m, player.x, now))
  }

  lemma AnimationPreservesValid(s: Session, now: real, height: real)
    requires Valid(s, height)
    ensures Valid(AnimationStep(s, now), height)
  {
  }

  /** `processMotionFrame` without drawing: difference the frame against the
      stored luma, and when enough pixels moved blend the centroid into the
      smoothed signal and retarget the avatar. Returns the active-pixel count
      as well. */
  method ProcessMotionFrame(s: Session, data: seq<Byte>, width: nat)
    returns (s': Session, activePixels: nat)
    requires width > 0
    requires |data| % 4 == 0
    ensures activePixels == CountActive(data, s.previousLuma, PixelCount(data))
    ensures activePixels <= PixelCount(data)
    ensures s.previousLuma.None? ==> activePixels == 0
    ensures activePixels <= MinActivePixels ==>
      s'.smoothedMotionX == s.smoothedMotionX && s'.player == s.player
    ensures activePixels > MinActivePixels ==>
      s'.smoothedMotionX ==
        Blend(s.smoothedMotionX, CentroidX(activePixels, SumActiveX(data, width, s.previousLuma, PixelCount(data)), width))
    ensures activePixels > MinActivePixels ==>
      s'.player.targetX == MapMotionToTrackX(s'.smoothedMotionX) && PlayerMinX <= s'.player.targetX <= PlayerMaxX
    ensures 0.0 <= s.smoothedMotionX <= 1.0 ==> 0.0 <= s'.smoothedMotionX <= 1.0
    ensures s'.previousLuma.Some? && |s'.previousLuma.value| == PixelCount(data)
    ensures forall k :: 0 <= k < PixelCount(data) ==> s'.previousLuma.value[k] == PixelLuma(data, k)
    ensures s'.player.x == s.player.x
    ensures s' == s.(previousLuma := s'.previousLuma, smoothedMotionX := s'.smoothedMotionX, player := s'.player)
  {
    var sumX, currentLuma;
    activePixels, sumX, currentLuma := DiffFrame(data, width, s.previousLuma);
    CountBounded(data, s.previousLuma, PixelCount(data));
    SumBounded(data, width, s.previousLuma, PixelCount(data));
    if s.previousLuma.None? {
      FirstFrameIsQuiet(data, width, PixelCount(data));
    }
    var sample := GateCentroid(activePixels, sumX, width);
    var smoothed := Smooth(s.smoothedMotionX, sample);
    var player := if sample.Some? then s.player.(targetX := MapMotionToTrackX(smoothed)) else s.player;
    s' := s.(previousLuma := Some(currentLuma), smoothedMotionX := smoothed, player := player);
  }

  /** The camera step only writes the luma buffer, the smoothed signal and
      the avatar; with the signal kept in the unit interval, as
      `ProcessMotionFrame` guarantees, validity is kept. */
  lemma CameraStepPreservesValid(s: Session, luma: Option<seq<Byte>>, smoothed: real, player: Player, height: real)
    requires Valid(s, height)
    requires 0.0 <= smoothed <= 1.0
    ensures Valid(s.(previousLuma := luma, smoothedMotionX := smoothed, player := player), height)
  {
  }
}

=== FILE: metrics.dfy ===
/** The live physics readouts of the display loop: horizontal speed with its
    running maximum (`updatePhysicsMetrics`) and the reaction time between an
    obstacle spawn and the first deliberate target move
    (`maybeRecordReaction`). Times are `performance.now()` milliseconds. */
module Metrics {
  import opened Common

  /** A target move larger than this counts as a deliberate response. */
  const ReactionDeadband: real := 8.0
  /** Floor on the frame interval, in seconds, guarding the division. */
  const MinInterval: real := 0.001

  datatype MetricsState = MetricsState(
    lastPlayerX: real,
    lastPlayerUpdate: real,
    maxHorizontalSpeed: real,
    movementStartTime: Option<real>,
    reactionMs: Option<int>,
    previousTargetX: real)

  /** Seconds since the previous display frame, never below `MinInterval`. */
  function Interval(lastUpdate: real, now: real): (dt: real)
    ensures dt >= MinInterval
    ensures now - lastUpdate >= 1000.0 * MinInterval ==> dt * 1000.0 == now - lastUpdate
    ensures now - lastUpdate < 1000.0 * MinInterval ==> dt == MinInterval
  {
    Max((now - lastUpdate) / 1000.0, MinInterval)
  }

  /** Pixels per second moved since the previous display frame. */
  function HorizontalSpeed(lastX: real, x: real, lastUpdate: real, now: real): (v: real)
    ensures v * Interval(lastUpdate, now) == Abs(x - lastX)
    ensures v >= 0.0
    ensures v == 0.0 <==> x == lastX
    ensures v <= Abs(x - lastX) / MinInterval
  {
    var dt := Interval(lastUpdate, now);
    SpeedBounds(Abs(x - lastX), dt);
    Abs(x - lastX) / dt
  }

  lemma SpeedBounds(d: real, dt: real)
    requires d >= 0.0 && dt >= MinInterval
    ensures 0.0 <= d / dt <= d / MinInterval
    ensures d / dt == 0.0 <==> d == 0.0
  {
    assert d / dt * dt == d;
    assert d / MinInterval == d * 1000.0;
  }

  /** Samples the avatar's speed and folds it into the running maximum. */
  function UpdatePhysicsMetrics(m: MetricsState, x: real, now: real): (m': MetricsState)
    ensures m'.lastPlayerX == x && m'.lastPlayerUpdate == now
    ensures m'.maxHorizontalSpeed >= m.maxHorizontalSpeed
    ensures m'.maxHorizontalSpeed >= HorizontalSpeed(m.lastPlayerX, x, m.lastPlayerUpdate, now)
    ensures m'.maxHorizontalSpeed == m.maxHorizontalSpeed
         || m'.maxHorizontalSpeed == HorizontalSpeed(m.lastPlayerX, x, m.lastPlayerUpdate, now)
    ensures m'.movementStartTime == m.movementStartTime && m'.reactionMs == m.reactionMs
    ensures m'.previousTargetX == m.previousTargetX
  {
    var speed := HorizontalSpeed(m.lastPlayerX, x, m.lastPlayerUpdate, now);
    m.(maxHorizontalSpeed := Max(m.maxHorizontalSpeed, speed),
       lastPlayerX := x,
       lastPlayerUpdate := now)
  }

  /** The target moved far enough from the last recorded one. */
  predicate MovedEnough(previousTargetX: real, targetX: real)
  {
    Abs(targetX - previousTargetX) > ReactionDeadband
  }

  /** Milliseconds from spawn to response, rounded and never negative. */
  function ReactionValue(start: real, now: real): (ms: int)
    ensures ms >= 0
    ensures now - start >= 0.0 ==> now - start - 0.5 < ms as real <= now - start + 0.5
  {
    if Round(now - start) < 0 then 0 else Round(now - start)
  }

  /** Records the reaction time on the first deliberate move after a spawn,
      and moves the reference target on every deliberate move. */
  function MaybeRecordReaction(m: MetricsState, targetX: real, now: real): (m': MetricsState)
    ensures m'.reactionMs != m.reactionMs ==>
      m.movementStartTime.Some? && m.reactionMs.None? && MovedEnough(m.previousTargetX, targetX)
    ensures m.movementStartTime.Some? && m.reactionMs.None? && MovedEnough(m.previousTargetX, targetX) ==>
      m'.reactionMs == Some(ReactionValue(m.movementStartTime.value, now))
    ensures m.reactionMs.Some? ==> m'.reactionMs == m.reactionMs
    ensures m'.previousTargetX != m.previousTargetX ==>
      MovedEnough(m.previousTargetX, targetX) && m'.previousTargetX == targetX
    ensures MovedEnough(m.previousTargetX, targetX) ==> m'.previousTargetX == targetX
    ensures m'.lastPlayerX == m.lastPlayerX && m'.lastPlayerUpdate == m.lastPlayerUpdate
    ensures m'.maxHorizontalSpeed == m.maxHorizontalSpeed && m'.movementStartTime == m.movementStartTime
  {
    var moved := MovedEnough(m.previousTargetX, targetX);
    var m1 :=
      if m.movementStartTime.Some? && m.reactionMs.None? && moved
      then m.(reactionMs := Some(ReactionValue(m.movementStartTime.value, now)))
      else m;
    if moved then m1.(previousTargetX := targetX) else m1
  }

  /** The avatar's target and the clock at one display frame. */
  datatype Sample = Sample(targetX: real, now: real)

  /** `maybeRecordReaction` over consecutive display frames with no spawn
      in between. */
  function RecordAll(m: MetricsState, samples: seq<Sample>): MetricsState
    decreases |samples|
  {
    if |samples| == 0 then m
    else RecordAll(MaybeRecordReaction(m, samples[0].targetX, samples[0].now), samples[1..])
  }

  /** Once recorded, a reaction time is never overwritten. */
  lemma {:induction false} ReactionRecordedOnce(m: MetricsState, samples: seq<Sample>)
    requires m.reactionMs.Some?
    ensures RecordAll(m, samples).reactionMs == m.reactionMs
    decreases |samples|
  {
    if |samples| > 0 {
      ReactionRecordedOnce(MaybeRecordReaction(m, samples[0].targetX, samples[0].now), samples[1..]);
    }
  }

  /** Frame `j` is the first whose target moved past the deadband from `reference`. */
  ghost predicate FirstMoveAt(reference: real, samples: seq<Sample>, j: int)
  {
    && 0 <= j < |samples|
    && MovedEnough(reference, samples[j].targetX)
    && forall i :: 0 <= i < j ==> !MovedEnough(reference, samples[i].targetX)
  }

  /** After a spawn, the reaction time is that of the first frame whose
      target moved more than the deadband from the reference target; while
      no frame does, nothing is recorded and the reference stays put. */
  lemma {:induction false} FirstMoveWins(m: MetricsState, samples: seq<Sample>)
    requires m.movementStartTime.Some? && m.reactionMs.None?
    ensures (forall j :: 0 <= j < |samples| ==> !MovedEnough(m.previousTargetX, samples[j].targetX)) ==>
      RecordAll(m, samples) == m
    ensures forall j :: FirstMoveAt(m.previousTargetX, samples, j) ==>
      RecordAll(m, samples).reactionMs == Some(ReactionValue(m.movementStartTime.value, samples[j].now))
    decreases |samples|
  {
    if |samples| > 0 {
      var s0, rest := samples[0], samples[1..];
      var m1 := MaybeRecordReaction(m, s0.targetX, s0.now);
      if MovedEnough(m.previousTargetX, s0.targetX) {
        ReactionRecordedOnce(m1, rest);
        forall j | FirstMoveAt(m.previousTargetX, samples, j)
          ensures j == 0
        {
        }
      } else {
        assert m1 == m;
        FirstMoveWins(m, rest);
        forall j | FirstMoveAt(m.previousTargetX, samples, j)
          ensures FirstMoveAt(m.previousTargetX, rest, j - 1)
        {
          assert rest[j - 1] == samples[j];
          forall i | 0 <= i < j - 1
            ensures !MovedEnough(m.previousTargetX, rest[i].targetX)
          {
            assert rest[i] == samples[i + 1];
          }
        }
        if forall j :: 0 <= j < |samples| ==> !MovedEnough(m.previousTargetX, samples[j].targetX) {
          forall i | 0 <= i < |rest|
            ensures !MovedEnough(m.previousTargetX, rest[i].targetX)
          {
            assert rest[i] == samples[i + 1];
          }
        }
      }
    }
  }

  /** The avatar's position and the clock at one display frame. */
  datatype Position = Position(x: real, now: real)

  /** `updatePhysicsMetrics` over consecutive display frames. */
  function UpdateAll(m: MetricsState, frames: seq<Position>): MetricsState
    decreases |frames|
  {
    if |frames| == 0 then m
    else UpdateAll(UpdatePhysicsMetrics(m, frames[0].x, frames[0].now), frames[1..])
  }

  /** The running maximum never falls and bounds the first sampled speed;
      the last frame is the one recorded. */
  lemma {:induction false} MaxSpeedIsRunningMax(m: MetricsState, frames: seq<Position>)
    ensures UpdateAll(m, frames).maxHorizontalSpeed >= m.maxHorizontalSpeed
    ensures |frames| > 0 ==>
      UpdateAll(m, frames).maxHorizontalSpeed >= HorizontalSpeed(m.lastPlayerX, frames[0].x, m.lastPlayerUpdate, frames[0].now)
    ensures |frames| > 0 ==>
      UpdateAll(m, frames).lastPlayerX == frames[|frames| - 1].x
      && UpdateAll(m, frames).lastPlayerUpdate == frames[|frames| - 1].now
    decreases |frames|
  {
    if |frames| > 0 {
      var m1 := UpdatePhysicsMetrics(m, frames[0].x, frames[0].now);
      MaxSpeedIsRunningMax(m1, frames[1..]);
      if |frames| > 1 {
        assert frames[1..][|frames[1..]| - 1] == frames[|frames| - 1];
      }
    }
  }

  /** Running the frames in two stretches is running them in one. */
  lemma {:induction false} UpdateAllSplit(m: MetricsState, frames: seq<Position>, j: nat)
    requires j <= |frames|
    ensures UpdateAll(m, frames) == UpdateAll(UpdateAll(m, frames[..j]), frames[j..])
    decreases j
  {
    if j == 0 {
      assert frames[..0] == [] && frames[0..] == frames;
    } else {
      var m1 := UpdatePhysicsMetrics(m, frames[0].x, frames[0].now);
      UpdateAllSplit(m1, frames[1..], j - 1);
      assert frames[1..][..j - 1] == frames[..j][1..];
      assert frames[1..][j - 1..] == frames[j..];
    }
  }

  /** The final maximum bounds the speed sampled at every frame: the first
      one against the starting sample, every later one against the frame
      before it. */
  lemma {:induction false} MaxSpeedBoundsEverySample(m: MetricsState, frames: seq<Position>, j: nat)
    requires j < |frames|
    ensures j == 0 ==>
      UpdateAll(m, frames).maxHorizontalSpeed >= HorizontalSpeed(m.lastPlayerX, frames[0].x, m.lastPlayerUpdate, frames[0].now)
    ensures j > 0 ==>
      UpdateAll(m, frames).maxHorizontalSpeed >= HorizontalSpeed(frames[j - 1].x, frames[j].x, frames[j - 1].now, frames[j].now)
  {
    var before := UpdateAll(m, frames[..j]);
    UpdateAllSplit(m, frames, j);
    MaxSpeedIsRunningMax(before, frames[j..]);
    assert frames[j..][0] == frames[j];
    if j > 0 {
      MaxSpeedIsRunningMax(m, frames[..j]);
      assert frames[..j][j - 1] == frames[j - 1];
    } else {
      assert frames[..0] == [];
    }
  }
}

=== FILE: motion.dfy ===
/** The camera half of the game (`processMotionFrame`): per-pixel luma
    differencing against the previous frame, the active-pixel count and
    column sum, the minimum-activity gate, the normalised centroid and the
    exponential smoothing of the horizontal control signal. */
module Motion {
  import opened Common

  /** A pixel is active when its luma moved by more than this. */
  const MotionThreshold: int := 26
  /** At most this many active pixels means no signal. */
  const MinActivePixels: nat := 50
  /** Weight of the previous smoothed value in the blend. */
  const Persistence: real := 0.6
  /** Weight of the new centroid in the blend. */
  const Responsiveness: real := 0.4

  /** Rec. 601 luma of one RGB pixel, rounded as `Math.round` does. */
  function Luma(r: Byte, g: Byte, b: Byte): (l: Byte)
    ensures Abs(l as real - (0.299 * r as real + 0.587 * g as real + 0.114 * b as real)) <= 0.5
  {
    Round(0.299 * r as real + 0.587 * g as real + 0.114 * b as real)
  }

  /** A grey pixel's luma is its channel value: the weights sum to one. */
  lemma GreyLuma(v: Byte)
    ensures Luma(v, v, v) == v
  {
  }

  /** Number of pixels in an RGBA frame. */
  function PixelCount(data: seq<Byte>): nat
  {
    |data| / 4
  }

  /** Luma of pixel `k` of an RGBA frame (channels at 4k, 4k+1, 4k+2). */
  function PixelLuma(data: seq<Byte>, k: nat): Byte
    requires k < PixelCount(data)
  {
    Luma(data[4 * k], data[4 * k + 1], data[4 * k + 2])
  }

  /** The luma pixel `k` is compared against: the stored one, or the pixel's
      own luma on the first frame. Reading past the end of a shorter stored
      buffer yields JavaScript's `undefined`, modelled as `None`. */
  function PreviousAt(prev: Option<seq<Byte>>, k: nat, luma: Byte): Option<Byte>
  {
    match prev
    case None => Some(luma)
    case Some(p) => if k < |p| then Some(p[k]) else None
  }

  /** Whether a pixel of luma `luma` at index `k` counts as moving. A
      comparison against `undefined` is false, so such a pixel is inactive. */
  predicate Active(prev: Option<seq<Byte>>, k: nat, luma: Byte)
  {
    match PreviousAt(prev, k, luma)
    case None => false
    case Some(pl) => Abs(luma as real - pl as real) > MotionThreshold as real
  }

  predicate ActiveAt(data: seq<Byte>, prev: Option<seq<Byte>>, k: nat)
    requires k < PixelCount(data)
  {
    Active(prev, k, PixelLuma(data, k))
  }

  /** Reference count of active pixels among the first `n`. */
  function CountActive(data: seq<Byte>, prev: Option<seq<Byte>>, n: nat): nat
    requires n <= PixelCount(data)
  {
    if n == 0 then 0
    else CountActive(data, prev, n - 1) + (if ActiveAt(data, prev, n - 1) then 1 else 0)
  }

  /** Reference sum of the column indices of the active pixels among the
      first `n`. */
  function SumActiveX(data: seq<Byte>, width: nat, prev: Option<seq<Byte>>, n: nat): nat
    requires width > 0
    requires n <= PixelCount(data)
  {
    if n == 0 then 0
    else SumActiveX(data, width, prev, n - 1) + (if ActiveAt(data, prev, n - 1) then (n - 1) % width else 0)
  }

  /** The differencing loop of `processMotionFrame`: one pass over the RGBA
      bytes, computing the new luma buffer, the active-pixel count and the
      sum of the active pixels' columns. */
  method DiffFrame(data: seq<Byte>, width: nat, prev: Option<seq<Byte>>)
    returns (activePixels: nat, sumX: nat, currentLuma: seq<Byte>)
    requires width > 0
    requires |data| % 4 == 0
    ensures |currentLuma| == PixelCount(data)
    ensures forall k :: 0 <= k < |currentLuma| ==> currentLuma[k] == PixelLuma(data, k)
    ensures activePixels == CountActive(data, prev, PixelCount(data))
    ensures sumX == SumActiveX(data, width, prev, PixelCount(data))
  {
    activePixels, sumX, currentLuma := 0, 0, [];
    var i, pixelIndex := 0, 0;
    while i < |data|
      invariant i == 4 * pixelIndex && pixelIndex <= PixelCount(data)
      invariant |currentLuma| == pixelIndex
      invariant forall k :: 0 <= k < pixelIndex ==> currentLuma[k] == PixelLuma(data, k)
      invariant activePixels == CountActive(data, prev, pixelIndex)
      invariant sumX == SumActiveX(data, width, prev, pixelIndex)
    {
      PixelInFrame(data, pixelIndex);
      var x := pixelIndex % width;
      var luma := Luma(data[i], data[i + 1], data[i + 2]);
      currentLuma := currentLuma + [luma];
      if Active(prev, pixelIndex, luma) {
        activePixels := activePixels + 1;
        sumX := sumX + x;
      }
      i, pixelIndex := i + 4, pixelIndex + 1;
    }
    PixelInFrame(data, pixelIndex);
  }

  /** Byte offset `4 * p` of a whole-pixel frame is inside the frame exactly
      when pixel `p` is. */
  lemma PixelInFrame(data: seq<Byte>, p: nat)
    requires |data| % 4 == 0 && p <= PixelCount(data)
    ensures 4 * p < |data| <==> p < PixelCount(data)
    ensures 4 * p < |data| ==> 4 * p + 3 < |data|
  {
  }

  /** The indices of the active pixels among the first `n`. */
  ghost function ActiveIndices(data: seq<Byte>, prev: Option<seq<Byte>>, n: nat): set<nat>
    requires n <= PixelCount(data)
  {
    set k: nat | k < n && ActiveAt(data, prev, k)
  }

  /** The count is the size of the set of active pixel indices. */
  lemma {:induction false} CountIsActiveSetSize(data: seq<Byte>, prev: Option<seq<Byte>>, n: nat)
    requires n <= PixelCount(data)
    ensures CountActive(data, prev, n) == |ActiveIndices(data, prev, n)|
  {
    if n > 0 {
      CountIsActiveSetSize(data, prev, n - 1);
      ActiveIndicesStep(data, prev, n);
    }
  }

  lemma ActiveIndicesStep(data: seq<Byte>, prev: Option<seq<Byte>>, n: nat)
    requires 0 < n <= PixelCount(data)
    ensures ActiveAt(data, prev, n - 1) ==>
      ActiveIndices(data, prev, n) == ActiveIndices(data, prev, n - 1) + {n - 1}
      && n - 1 !in ActiveIndices(data, prev, n - 1)
    ensures !ActiveAt(data, prev, n - 1) ==> ActiveIndices(data, prev, n) == ActiveIndices(data, prev, n - 1)
  {
  }

  /** At most every pixel is active. */
  lemma {:induction false} CountBounded(data: seq<Byte>, prev: Option<seq<Byte>>, n: nat)
    requires n <= PixelCount(data)
    ensures CountActive(data, prev, n) <= n
  {
    if n > 0 {
      CountBounded(data, prev, n - 1);
    }
  }

  /** Every summed column is below `width`, so the sum is at most
      `width - 1` per active pixel. */
  lemma {:induction false} SumBounded(data: seq<Byte>, width: nat, prev: Option<seq<Byte>>, n: nat)
    requires width > 0
    requires n <= PixelCount(data)
    ensures SumActiveX(data, width, prev, n) <= CountActive(data, prev, n) * (width - 1)
  {
    if n > 0 {
      SumBounded(data, width, prev, n - 1);
      var c, w := CountActive(data, prev, n - 1), width - 1;
      if ActiveAt(data, prev, n - 1) {
        assert (n - 1) % width <= w;
        MulSucc(c, w);
      }
    }
  }

  lemma MulSucc(c: nat, w: nat)
    ensures (c + 1) * w == c * w + w
  {
  }

  /** On the first frame every pixel is compared with itself: no motion. */
  lemma {:induction false} FirstFrameIsQuiet(data: seq<Byte>, width: nat, n: nat)
    requires width > 0
    requires n <= PixelCount(data)
    ensures CountActive(data, None, n) == 0
    ensures SumActiveX(data, width, None, n) == 0
  {
    if n > 0 {
      FirstFrameIsQuiet(data, width, n - 1);
    }
  }

  /** A pixel whose luma did not change is never active. */
  lemma UnchangedPixelInactive(p: seq<Byte>, k: nat, luma: Byte)
    requires k < |p| && p[k] == luma
    ensures !Active(Some(p), k, luma)
  {
  }

  /** Two identical frames in a row show no motion. */
  lemma {:induction false} StillSceneIsQuiet(data: seq<Byte>, prev: seq<Byte>, n: nat)
    requires n <= PixelCount(data) && n <= |prev|
    requires forall k :: 0 <= k < n ==> prev[k] == PixelLuma(data, k)
    ensures CountActive(data, Some(prev), n) == 0
  {
    if n > 0 {
      StillSceneIsQuiet(data, prev, n - 1);
      UnchangedPixelInactive(prev, n - 1, PixelLuma(data, n - 1));
    }
  }

  /** Mean active column divided by the frame width. */
  function CentroidX(activePixels: nat, sumX: nat, width: nat): (c: real)
    requires activePixels > 0 && width > 0
    ensures c * (activePixels * width) as real == sumX as real
    ensures 0.0 <= c
    ensures sumX <= activePixels * (width - 1) ==> c < 1.0
  {
    CentroidInUnit(activePixels, sumX, width);
    sumX as real / activePixels as real / width as real
  }

  /** Columns are `pixelIndex % width`, so a mean of them is in `[0, width)`
      whenever the sum is at most `width - 1` per pixel. */
  lemma CentroidInUnit(activePixels: nat, sumX: nat, width: nat)
    requires activePixels > 0 && width > 0
    ensures 0.0 <= sumX as real / activePixels as real / width as real
    ensures sumX <= activePixels * (width - 1) ==>
      sumX as real / activePixels as real / width as real < 1.0
  {
    var a, w := activePixels as real, width as real;
    var center := sumX as real / a;
    DivMonotone(0.0, sumX as real, a);
    DivMonotone(0.0, center, w);
    if sumX <= activePixels * (width - 1) {
      MeanBelowWidth(activePixels, sumX, width);
      DivBelowOne(center, w);
    }
  }

  /** A sum of at most `width - 1` per pixel has a mean below `width`. */
  lemma MeanBelowWidth(activePixels: nat, sumX: nat, width: nat)
    requires activePixels > 0 && width > 0
    requires sumX <= activePixels * (width - 1)
    ensures sumX as real / activePixels as real < width as real
  {
    var a, k := activePixels as real, (width - 1) as real;
    assert (activePixels * (width - 1)) as real == a * k;
    DivMonotone(sumX as real, a * k, a);
    assert (a * k) / a == k;
  }

  lemma DivBelowOne(x: real, d: real)
    requires d > 0.0 && x < d
    ensures x / d < 1.0
  {
  }

  lemma DivMonotone(x: real, y: real, d: real)
    requires d > 0.0 && x <= y
    ensures x / d <= y / d
  {
  }

  /** The minimum-activity gate: a normalised centroid when more than
      `MinActivePixels` pixels moved, `None` ("hold") otherwise. */
  function GateCentroid(activePixels: nat, sumX: nat, width: nat): (sample: Option<real>)
    requires width > 0
    ensures sample.None? <==> activePixels <= MinActivePixels
    ensures sample.Some? && sumX <= activePixels * (width - 1) ==> 0.0 <= sample.value < 1.0
  {
    if activePixels > MinActivePixels then Some(CentroidX(activePixels, sumX, width)) else None
  }

  /** One exponential-smoothing step toward `sample`. */
  function Blend(smoothed: real, sample: real): (r: real)
    ensures r - sample == Persistence * (smoothed - sample)
    ensures Min(smoothed, sample) <= r <= Max(smoothed, sample)
    ensures smoothed != sample ==> Abs(r - sample) < Abs(smoothed - sample)
  {
    smoothed * Persistence + sample * Responsiveness
  }

  /** The smoothed horizontal signal after one analysed frame: held when
      the gate reports no signal, blended toward the centroid otherwise. */
  function Smooth(smoothed: real, sample: Option<real>): (r: real)
    ensures sample.None? ==> r == smoothed
    ensures sample.Some? ==> Min(smoothed, sample.value) <= r <= Max(smoothed, sample.value)
  {
    match sample
    case None => smoothed
    case Some(c) => Blend(smoothed, c)
  }

  /** Smoothing keeps the signal in the unit interval. */
  lemma SmoothStaysInUnit(smoothed: real, activePixels: nat, sumX: nat, width: nat)
    requires width > 0
    requires 0.0 <= smoothed <= 1.0
    requires sumX <= activePixels * (width - 1)
    ensures 0.0 <= Smooth(smoothed, GateCentroid(activePixels, sumX, width)) <= 1.0
  {
  }
}

=== FILE: seqs.dfy ===
/** `Array.prototype.filter` on immutable sequences, and the facts the game
    needs about it: membership, length, and preservation of relative order. */
module Seqs {

  /** Keeps the elements of `s` satisfying `p`, in their original order. */
  function Filter<T>(s: seq<T>, p: T -> bool): (r: seq<T>)
    ensures |r| <= |s|
    ensures forall k :: 0 <= k < |r| ==> r[k] in s && p(r[k])
    ensures forall i :: 0 <= i < |s| && p(s[i]) ==> s[i] in r
    ensures |r| == |s| <==> forall i :: 0 <= i < |s| ==> p(s[i])
    decreases |s|
  {
    if |s| == 0 then []
    else if p(s[0]) then [s[0]] + Filter(s[1..], p)
    else Filter(s[1..], p)
  }

  /** The positions, from `from` on, of the elements `Filter` keeps. */
  function Kept<T>(s: seq<T>, p: T -> bool, from: nat): seq<nat>
    requires from <= |s|
    decreases |s| - from
  {
    if from == |s| then []
    else (if p(s[from]) then [from] else []) + Kept(s, p, from + 1)
  }

  /** `r` is `s` restricted to the increasing positions `idx`. */
  ghost predicate SelectsAt<T>(r: seq<T>, s: seq<T>, idx: seq<nat>)
  {
    && |idx| == |r|
    && (forall k :: 0 <= k < |idx| ==> idx[k] < |s| && r[k] == s[idx[k]])
    && (forall k1, k2 :: 0 <= k1 < k2 < |idx| ==> idx[k1] < idx[k2])
  }

  /** Every position `Kept` reports lies in `[from, |s|)`, and a position
      there is reported exactly when its element satisfies `p`. */
  lemma {:induction false} KeptPositions<T>(s: seq<T>, p: T -> bool, from: nat)
    requires from <= |s|
    ensures forall k :: 0 <= k < |Kept(s, p, from)| ==> from <= Kept(s, p, from)[k] < |s|
    ensures forall i :: from <= i < |s| ==> (p(s[i]) <==> i in Kept(s, p, from))
    decreases |s| - from
  {
    if from < |s| {
      KeptPositions(s, p, from + 1);
      var restIdx := Kept(s, p, from + 1);
      var head: seq<nat> := if p(s[from]) then [from] else [];
      assert Kept(s, p, from) == head + restIdx;
      forall i | from <= i < |s|
        ensures p(s[i]) <==> i in Kept(s, p, from)
      {
        assert i in Kept(s, p, from) <==> i in head || i in restIdx;
      }
    }
  }

  lemma {:induction false} KeptSpec<T>(s: seq<T>, p: T -> bool, from: nat)
    requires from <= |s|
    ensures SelectsAt(Filter(s[from..], p), s, Kept(s, p, from))
    decreases |s| - from
  {
    if from < |s| {
      KeptSpec(s, p, from + 1);
      KeptPositions(s, p, from + 1);
      var rest := Filter(s[from + 1..], p);
      var restIdx := Kept(s, p, from + 1);
      assert s[from..][1..] == s[from + 1..];
      assert s[from..][0] == s[from];
      if p(s[from]) {
        assert Filter(s[from..], p) == [s[from]] + rest;
        assert Kept(s, p, from) == [from] + restIdx;
        SelectsCons(rest, s, restIdx, from);
      } else {
        assert Filter(s[from..], p) == rest;
        assert Kept(s, p, from) == restIdx;
      }
    }
  }

  /** Prepending a position below all others to a selection keeps it one. */
  lemma SelectsCons<T>(r: seq<T>, s: seq<T>, idx: seq<nat>, i: nat)
    requires SelectsAt(r, s, idx)
    requires i < |s|
    requires forall k :: 0 <= k < |idx| ==> i < idx[k]
    ensures SelectsAt([s[i]] + r, s, [i] + idx)
  {
    var r', idx' := [s[i]] + r, [i] + idx;
    forall k | 0 <= k < |idx'|
      ensures idx'[k] < |s| && r'[k] == s[idx'[k]]
    {
      if k > 0 {
        assert idx'[k] == idx[k - 1] && r'[k] == r[k - 1];
      }
    }
    forall k1, k2 | 0 <= k1 < k2 < |idx'|
      ensures idx'[k1] < idx'[k2]
    {
      assert idx'[k2] == idx[k2 - 1];
      if k1 > 0 {
        assert idx'[k1] == idx[k1 - 1];
      }
    }
  }

  /** Filtering keeps exactly the elements satisfying `p`, each at a
      position after the one kept before it: relative order is preserved. */
  lemma FilterPreservesOrder<T>(s: seq<T>, p: T -> bool)
    ensures SelectsAt(Filter(s, p), s, Kept(s, p, 0))
    ensures forall i :: 0 <= i < |s| ==> (p(s[i]) <==> i in Kept(s, p, 0))
  {
    KeptSpec(s, p, 0);
    KeptPositions(s, p, 0);
    assert s[0..] == s;
  }

  /** An element appended after the rest survives filtering at the end. */
  lemma {:induction false} FilterAppend<T>(s: seq<T>, x: T, p: T -> bool)
    requires p(x)
    ensures Filter(s + [x], p) == Filter(s, p) + [x]
    decreases |s|
  {
    if |s| == 0 {
      assert s + [x] == [x];
      assert [x][1..] == [];
    } else {
      assert (s + [x])[1..] == s[1..] + [x];
      FilterAppend(s[1..], x, p);
    }
  }
}
